=== FILE: README.md ===
# toshl-go client core, modelled in Dafny

This project models the core of `toshl-go`, a Go client for the Toshl Finance
REST API:

- **Transport.** `RestHTTPClient` (http_client.go) builds each request: the URL, the
  Bearer token, the User-Agent and the JSON content type. It reads the
  response body and the `Link` and `Location` headers. `Post` gates on the
  status code and takes the new resource's ID from `Location`.
- **Pagination.** `GetMultiple` follows the `Link` header's `rel="next"` cursor
  from page to page. A failure anywhere discards every page already fetched.
- **Facade.** The `Client` operations of client.go compose endpoint paths and
  payloads on top of any `HTTPClient`. They decode or encode through JSON
  codecs, and they give created resources the ID the server returned.
- **Entry query string.** `EntryQueryParams.getQueryString` (entry.go) insists
  on both dates and writes `from=YYYY-MM-DD&to=YYYY-MM-DD` through
  `url.Values`.
- **Date and time codecs.** The `Date` and `Time` wrappers of common.go use the
  layouts `2006-01-02` and `15:04:05`. Dates are quoted in JSON, times are not,
  and both readers strip surrounding quotes.

The modules follow that structure:

| module | file | models |
|---|---|---|
| `Results` | results.dfy | Go's `(value, error)` returns as `Result`/`Option` |
| `Text` | text.dfy | `strings.Split`, `strings.Trim`, decimal digits, `strconv.Itoa` |
| `Calendar` | calendar.dfy | `Date`/`Time` and their text and JSON forms |
| `Query` | query.dfy | `url.Values`, `Set`, `Encode`, `QueryEscape`; `getQueryString` |
| `Location` | location.dfy | `parseIDFromLocationHeader` |
| `Links` | links.dfy | `extractNextLink`, `extractQueryLink` |
| `Transport` | transport.dfy | headers, request URLs, `getRequest`, `Get`, `Post`, `Update`, `Delete` |
| `Pagination` | pagination.dfy | `GetMultiple` |
| `Facade` | facade.dfy | `Accounts`, `GetAccount`, `SearchAccount`, `MoveAccount`, `CreateCategory`, `Entries`, `CreateEntry` |

The world outside the client is a set of parameters:

- `url.Parse` is `parsePath`, which yields the path or `None` when the text is
  rejected.
- `http.Client.Do` together with `io.ReadAll` is `send`.
- `runtime.Version()` is a string.
- The `HTTPClient` interface is a record of functions.
- `json.Marshal` and `json.Unmarshal` for the resource types are records of
  functions.

Two of the source's behaviours need special modelling:

- `log.Fatal` in `Entries` ends the process. It is modelled as the outcome
  `Exit.Fatal`, carrying the validation message.
- The unbounded pagination loop is proved against a functional walk that
  counts the cursors it may still follow.

In these places the model follows the code, which a reader might not expect:

- A `Location` whose path ends in '/' (such as `https://api.toshl.com/`) yields
  the empty ID rather than an error. See `Location.HostLocationExample`.
- `Update` and `Delete` never look at the status code. `Delete` does not even
  read the response. See `Transport.StatusFreeVerbs`.
- `Post`'s failure on a non-2xx status is one fixed error (`StatusNot2xx`). It
  does not carry the status code.
- `Time` is marshalled without quotes.

## Model

| member | source | states |
|---|---|---|
| `Text.SplitPieces` | http_client.go:67 | joining the pieces of `strings.Split` with the separator gives back the text, and no piece holds the separator |
| `Text.SplitJoin` | http_client.go:67 | splitting the join of separator-free pieces gives back exactly those pieces |
| `Text.SplitCount` | http_client.go:67-72 | the split has more than one piece exactly when the separator occurs in the text |
| `Text.SplitLast` | http_client.go:69-70 | the last piece of the split is the text after the last separator |
| `Text.LastPieceShape` | http_client.go:69-70 | the text after the last separator is a proper suffix preceded by the separator and free of it; without a separator it is the whole text |
| `Text.Trim` | http_client.go:134 | `strings.Trim` with one character leaves a result that neither starts nor ends with that character |
| `Text.TrimIsRun` | common.go:52 | everything trimmed off either end is the trimmed character, so the result is the text between two maximal runs of it |
| `Text.TrimExact` | common.go:52 | text wrapped in runs of the character, whose own ends are not that character, trims back to exactly itself |
| `Text.TrimKeepsAbsent` | http_client.go:134 | trimming introduces no character the text did not hold |
| `Text.Itoa` | client.go:175 | `strconv.Itoa` writes a decimal text that reads back as the same integer; it starts with '-' exactly for negative numbers, and its digits have no leading zero |
| `Calendar.YearText` | common.go:42 | the year is written with four digits exactly when it lies in 0..9999; a non-negative year is at least four digits reading back as its value, and a negative year is '-' followed by at least four digits reading back as its magnitude |
| `Calendar.FormatDate` | common.go:61-64 | `Date.String` uses the layout YYYY-MM-DD: ten characters exactly for four-digit years, dashes at 4 and 7, and fields that read back as year, month and day |
| `Calendar.DateTextRoundTrip` | common.go:51-64 | parsing a four-digit-year date's text gives the date back |
| `Calendar.ParsedDateIsCanonical` | common.go:51-64 | any text the date layout accepts is the text of the date it parses to, so the layout has one spelling per date |
| `Calendar.MarshalDate` | common.go:46-49 | `Date.MarshalJSON` is the date text between double quotes |
| `Calendar.UnmarshalDate` | common.go:51-59 | `Date.UnmarshalJSON` succeeds exactly when the quote-trimmed text parses; it replaces the receiver only on success and leaves it untouched on failure |
| `Calendar.DateJsonRoundTrip` | common.go:46-59 | unmarshalling a marshalled date restores it for four-digit years; for other years it fails and keeps the old receiver |
| `Calendar.Fraction` | common.go:77 | the fractional second the time parser accepts after the seconds field stays below one second and leaves a suffix of its input; it consumes something exactly when the text starts with '.' or ',' and a digit, and reads 0 otherwise |
| `Calendar.NineDigits` | common.go:77 | the nanoseconds of a fraction are its first nine digits, right-padded with zeros when it has fewer |
| `Calendar.FractionRead` | common.go:77 | what the fraction reader consumes is the separator and the whole run of digits after it, and the value is the nanoseconds those digits spell |
| `Calendar.FormatTime` | common.go:66-73 | `HH:MM:SS`: eight characters, colons at 2 and 5, fields reading back as hour, minute and second |
| `Calendar.ParsedTimeFields` | common.go:77 | every text the `15:04:05` layout accepts is a one- or two-digit hour, ':', two minute digits, ':', two second digits and a fraction read whole, and these fields hold the parsed values |
| `Calendar.TimeFieldsParse` | common.go:77 | conversely, every such text with hour below 24 and minutes and seconds below 60 is accepted, with exactly those values |
| `Calendar.ParsedTimeIsCanonical` | common.go:66-77 | an accepted eight-character text is the formatted text of the time it parses to |
| `Calendar.MarshalTime` | common.go:70-73 | `Time.MarshalJSON` writes the eight-character time text with no quote at all |
| `Calendar.UnmarshalTime` | common.go:75-83 | `Time.UnmarshalJSON` succeeds exactly when the quote-trimmed text parses, and replaces the receiver only on success |
| `Calendar.UnmarshalTimeAccepted` | common.go:75-83 | every text `Time.UnmarshalJSON` accepts trims to an hour of one or two digits, two-digit minutes and seconds and a fraction, joined by colons, and the receiver then holds those fields' values |
| `Calendar.UnmarshalTimeFields` | common.go:75-83 | conversely, every such text in range is accepted, bare or quoted, and yields those values |
| `Calendar.TimeTextRoundTrip` | common.go:66-83 | parsing a time's text gives back its hour, minute and second (the nanoseconds are not written) |
| `Calendar.TimeJsonRoundTrip` | common.go:70-83 | unmarshalling a marshalled time, bare or quoted, gives back its hour, minute and second |
| `Query.Set` | entry.go:39-45 | after `Values.Set(key, value)`, `key` holds exactly `[value]`, every other key keeps its values, and the keys stay in ascending order |
| `Query.QueryEscape` | entry.go:51 | escaped text never holds the query delimiters '&' and '=', and text of unreserved characters is left unchanged |
| `Query.EscapedPairs` | entry.go:51 | no escaped key or value written by `Values.Encode` holds '&' or '=' |
| `Query.EncodeReadBack` | entry.go:51 | reading an encoded query string back at '&' and '=' yields exactly the escaped pairs, in key order |
| `Query.GetQueryString` | entry.go:29-52 | the call fails exactly when a date is the zero date; the message names the missing dates, `from` first; on failure the query is empty, otherwise it is `from=<from>&to=<to>` |
| `Query.EntryValuesEncode` | entry.go:39-51 | the two date values need no escaping and are encoded `from` before `to` |
| `Query.EntryQueryPairs` | entry.go:29-52 | a receiver of a valid entry query finds exactly the pairs (from, date text) and (to, date text), in that order |
| `Query.EntryQueryReadBack` | entry.go:29-52 | those two values parse back to the very dates for four-digit years |
| `Location.ParseIdFromLocation` | http_client.go:58-75 | a rejected URL fails with its text; a path with a '/' yields the suffix after the last '/' (free of '/'); a path without '/' fails with the resource-ID error |
| `Location.IdOfResourcePath` | http_client.go:58-75 | a `Location` whose path is `collection/id`, for an id without '/', yields exactly that id |
| `Location.HostLocationExample` | http_client.go:67-72 | the path "/" of a bare host yields the empty ID, not an error |
| `Links.FirstNextLink` | http_client.go:126-127 | the next-page regular expression's match starts at the leftmost position where `<[^<>]*>; rel="next"` matches |
| `Links.FindNextLink` | http_client.go:125-130 | the matched text is absent exactly when no position matches, and otherwise is the whole leftmost `<url>; rel="next"` |
| `Links.ExtractQueryLink` | http_client.go:120-123 | `\?[^<>]+` finds nothing exactly when no position matches; otherwise its match is the text of the input from the leftmost position where a '?' is followed by a character other than an angle bracket, up to the first angle bracket after it or the end, so it starts with '?' and holds no angle bracket |
| `Links.NextCursorShape` | http_client.go:125-135 | the cursor is empty without a next-page link, never holds an angle bracket, and neither starts nor ends with '?' |
| `Links.NextLinkCursor` | http_client.go:125-135 | the cursor is everything after the first '?' of the next-page URL, trimmed of '?'; it is empty when there is no such link or no '?' |
| `Links.MatchedLinkCursor` | http_client.go:132-134 | the query match inside `<url>; rel="next"` trims to the query part of `url` |
| `Links.NextLinkRoundTrip` | http_client.go:125-135 | a header whose first entry is `<target?cursor>; rel="next"` yields exactly `cursor`, whatever entries follow |
| `Links.NextLinkExample` | http_client.go:125-135 | the link to `https://api.example.com/entries?from=2020-01-01&page=2` yields the cursor `from=2020-01-01&page=2` |
| `Transport.UserAgent` | client.go:46-49 | the User-Agent is the prefix `toshl-go 0.1 - ` followed by the runtime version, which reads back from it |
| `Transport.BearerToken` | http_client.go:32-34 | a Bearer `Authorization` value reads back as the token it was written from |
| `Transport.Headers` | http_client.go:32-42 | every request carries the caller's Bearer token and the User-Agent; exactly the writing verbs carry `Content-Type: application/json`; there are no other headers |
| `Transport.RequestUrl` | http_client.go:78-82 | the URL is the resource URL, followed by '?' and the query exactly when the query is not empty |
| `Transport.RequestUrlSplits` | http_client.go:78-82 | the request URL splits back at its first '?' into the resource URL and the query string |
| `Transport.NewRequest` | http_client.go:84-94 | building a request fails exactly when the URL does not parse; otherwise it carries the verb, URL, payload and the verb's headers |
| `Transport.GetRequest` | http_client.go:77-112 | a GET without payload succeeds exactly when the URL parses, the request goes through and the body reads, whatever the status; it returns the body and `Link` value; otherwise it returns the URL error, the transport error or the read error, in that order |
| `Transport.Get` | http_client.go:115-118 | `Get` succeeds exactly when `getRequest` does, with its body, and otherwise fails with its error |
| `Transport.Post` | http_client.go:160-209 | URL and transport failures propagate; a success implies a 2xx status; a 2xx reply yields the ID parsed from `Location`, any other status the status error |
| `Transport.Update` | http_client.go:212-246 | a PUT succeeds exactly when the URL parses, the request goes through and the body reads; the result is the body; otherwise it returns the URL error, the transport error or the read error, in that order |
| `Transport.Delete` | http_client.go:249-271 | a DELETE succeeds exactly when the URL parses and the request goes through; otherwise it returns the URL error or the transport error |
| `Transport.StatusFreeVerbs` | http_client.go:212-271 | `Get`, `Update` and `Delete` give the same result whatever status the server answers with |
| `Transport.PostStatusGate` | http_client.go:187-208 | for a POST that reaches the server, a non-2xx status fails whatever `Location` says, and a 2xx status yields the ID in `Location` |
| `Pagination.Step` | http_client.go:138-153 | one request of the loop fails exactly when the fetch does, and otherwise gives the body and the cursor read from its `Link` |
| `Pagination.WalkUnfold` | http_client.go:146-154 | a failing request ends the walk with its error; otherwise its body comes first and the rest is what its cursor leads to |
| `Pagination.FollowCursors` | http_client.go:137-157 | the loop returns the walk's bodies in request order when it completes, and no bodies with the first failure otherwise |
| `Pagination.GetMultiple` | http_client.go:137-157 | the same loop over `getRequest` for the caller's endpoint, with `extractNextLink` reading the cursors |
| `Pagination.MoreFuel` | http_client.go:137-157 | the walk's result does not depend on the bound on cursors, once the walk ends within it |
| `Pagination.CompleteIsChain` | http_client.go:137-157 | a completed walk is a chain of requests from the caller's query, each later one carrying the previous non-empty cursor, with one body per request |
| `Pagination.ChainIsComplete` | http_client.go:137-157 | conversely, such a chain of requests is exactly what the walk returns |
| `Pagination.OneBodyPerRequest` | http_client.go:144-152 | following N cursors yields N + 1 bodies |
| `Pagination.FailedAfterPrefix` | http_client.go:146-150 | a failed walk is a chain of successful requests, each leading to the next, ending in the request whose error it reports |
| `Pagination.FailureEndsWalk` | http_client.go:146-150 | conversely, requests leading to a failing one make the walk fail with that error |
| `Facade.AccountPath` | client.go:78 | the path `accounts/<id>` splits back into the collection and the id, for an id without '/' |
| `Facade.PositionRoundTrip` | client.go:175 | the `{"position": N}` payload carries exactly N |
| `Facade.Accounts` | client.go:52-74 | GETs the collection with the given query, or the empty query; transport errors propagate; otherwise the result is the decoded body |
| `Facade.GetAccount` | client.go:77-93 | GETs the account's path with the empty query; errors propagate; otherwise the result is the decoded body |
| `Facade.FirstNamed` | client.go:127-131 | finds nothing exactly when no account has the name; otherwise it is the first index whose account has the name |
| `Facade.SearchAccount` | client.go:120-134 | listing errors propagate; the result is absent exactly when no account has the name, and otherwise is the first account in list order that has it |
| `Facade.MoveAccount` | client.go:174-184 | fails exactly when the POST of the position payload to the account's path fails, with its error |
| `Facade.CreateCategory` | client.go:313-331 | succeeds exactly when encoding and the POST succeed; only the ID changes, to the one the server returned; on failure the category is unchanged, and the error is the encoding error or otherwise the POST error, in that order |
| `Facade.CreateEntry` | client.go:421-439 | the same for an entry, whose ID becomes present; no other field changes; on failure the error is the encoding error or otherwise the POST error, in that order |
| `Facade.FlattenAppend` | client.go:406-416 | each page's entries form one block of the concatenation, blocks in page order |
| `Facade.DecodePages` | client.go:406-418 | returns every page's entries in page order when all decode; otherwise returns no entries and the error of the first page that fails |
| `Facade.Entries` | client.go:389-419 | stops the process exactly when a given date is zero, with the validation message; otherwise fetches every page of the query and returns the concatenated entries or the first error |

## Left out

- Real HTTP I/O is left out. `http.Client.Do` and `io.ReadAll` are the parameter `send`, and closing response bodies is not modelled: it has no effect on results.
- `url.Parse` is the parameter `parsePath`. Its acceptance rules and path extraction are not modelled.
- `http.NewRequest` is modelled only by its URL check. Its method-name validation cannot fail for the four fixed verbs.
- `runtime.Version()` is a string parameter.
- `SetTimeoutSeconds` is left out, because timeouts belong to the network, which is a parameter.
- All logging (`log.Print`, `log.Println`, `log.Printf`) is left out, because it has no effect on results.
- The body `Post` reads on a non-2xx status goes only into the log, so it is not modelled.
- `encoding/json` for the resource types is left out. The facade takes the codecs as parameters, and only the fields the facade reads or writes are modelled. Float fields (amounts, locations) are not modelled.
- The other facade operations are left out: `NewClient`, `GetHTTPClient`, `CreateAccount`, `UpdateAccount`, `DeleteAccount`, `ReorderAccounts`, `MergeAccounts`, `Budgets`, `GetBudget`, `Categories`, `GetCategory`, `UpdateCategory`, `DeleteCategory`, `MergeCategories`. They are further compositions of the same verbs, outside the modelled core.
- `AccountQueryParams.getQueryString`: account.go is not part of this model. `Facade.Accounts` takes the query string it would produce, or `None` for nil parameters.
- The facade is stated against any `HTTPClient`. A `RestHTTPClient` is not assembled into one, because its `GetMultiple` is a loop method and the interface is a record of functions.
- Characters stand for bytes. `Query.QueryEscape` percent-encodes a character by its code modulo 256, which agrees with Go for byte-sized characters only. UTF-8 encoding of wider characters is not modelled.
- Pagination.GetMultiple: requires that the server end the walk within a ghost bound on the number of cursors. A server that returns non-empty cursors forever makes the Go loop run forever, and that non-termination is not modelled.
- Pagination.FollowCursors: has the same finite-walk requirement as `GetMultiple`.
- Text.Split: its own contract states only that there is at least one piece. Its behaviour is stated by `Text.SplitPieces`, `Text.SplitJoin`, `Text.SplitCount` and `Text.SplitLast`.
- Query.Encode: it has no contract of its own. Its behaviour is stated by `Query.EncodeReadBack`, `Query.EscapedPairs` and `Query.EntryValuesEncode`.
- Links.ExtractNextLink: it has no contract of its own. Its behaviour is stated by `Links.NextCursorShape`, `Links.NextLinkCursor`, `Links.NextLinkRoundTrip` and `Links.NextLinkExample`.
- Facade.PositionPayload: it has no contract of its own. Its behaviour is stated by `Facade.PositionRoundTrip`.
- Calendar.ParseTime: its own contract states only that a rejection names the rejected text. Its full behaviour is stated by `Calendar.ParsedTimeFields` and `Calendar.TimeFieldsParse`.
- Calendar.ParseDate: its own contract states only that parsed years have four digits. Its full behaviour is stated by `Calendar.DateTextRoundTrip` and `Calendar.ParsedDateIsCanonical`.
- `time.Parse` for dates is modelled for the layout `2006-01-02` only. It reads exactly four year digits, two month digits and two day digits, and checks month and day ranges.
- `time.Parse` for times is modelled for the layout `15:04:05` only. It reads a one- or two-digit hour, two-digit minutes and seconds, and an optional fractional second. Go's parsed date part (year 0, January 1) and time zone are not modelled.
- Time zones and monotonic clock readings of `time.Time` are not modelled. A `Date` is a calendar day and a `Time` is a time of day.
- Facade.PositionRoundTrip: positions are unbounded integers, while Go's `int` is 64 bits. `strconv.Itoa` writes every 64-bit value exactly, so nothing is lost within Go's range.

=== FILE: calendar.dfy ===
/** The `Date` and `Time` wrappers of common.go and their JSON text forms.

    `Date` is written and read with the layout "2006-01-02" (YYYY-MM-DD) and travels
    in JSON as a quoted string; `Time` uses the layout "15:04:05" (HH:MM:SS) and is
    written WITHOUT quotes. Both readers strip every surrounding double quote before
    parsing and leave the receiver untouched when parsing fails.

    Only the calendar fields of Go's `time.Time` are modelled: a date is a
    (year, month, day) triple of the proleptic Gregorian calendar, and a time of day
    is (hour, minute, second, nanosecond).
 */
module Calendar {
  import opened Results
  import opened Text

  // ---------------------------------------------------------------------------
  // Dates
  // ---------------------------------------------------------------------------

  datatype CivilDate = CivilDate(year: int, month: int, day: int)

  predicate IsLeap(year: int) {
    year % 4 == 0 && (year % 100 != 0 || year % 400 == 0)
  }

  function DaysIn(month: int, year: int): int
    requires 1 <= month <= 12
  {
    if month == 2 then (if IsLeap(year) then 29 else 28)
    else if month == 4 || month == 6 || month == 9 || month == 11 then 30
    else 31
  }

  predicate ValidDate(d: CivilDate) {
    1 <= d.month <= 12 && 1 <= d.day <= DaysIn(d.month, d.year)
  }

  /** A day that a Go `time.Time` can denote. */
  type Date = d: CivilDate | ValidDate(d) witness CivilDate(1, 1, 1)

  /** The zero `time.Time`: January 1 of year 1. */
  const ZeroDate: Date := CivilDate(1, 1, 1)

  /** A year as layout element "2006" writes it: a minus sign for negative years,
      then at least four digits. */
  function YearText(year: int): (s: string)
    ensures |s| == 4 <==> 0 <= year <= 9999
    ensures forall i :: 0 <= i < |s| ==> IsDigit(s[i]) || s[i] == '-'
    ensures 0 <= year ==> |s| >= 4 && AllDigits(s) && ValueOf(s) == year
    ensures year < 0 ==> |s| >= 5 && s[0] == '-' && AllDigits(s[1..]) && ValueOf(s[1..]) == -year
  {
    if year < 0 then
      var digits := Pad(-year, 4);
      assert ("-" + digits)[1..] == digits;
      "-" + digits
    else
      PadWidth(year, 4);
      Pad(year, 4)
  }

  /** `Date.String`: the date in the layout YYYY-MM-DD, month and day zero-padded
      to two digits. For the years 0 to 9999 this is exactly ten characters, and
      every field reads back as the number it was written from. */
  function FormatDate(d: Date): (s: string)
    ensures forall i :: 0 <= i < |s| ==> IsDigit(s[i]) || s[i] == '-'
    ensures |s| == 10 <==> 0 <= d.year <= 9999
    ensures 0 <= d.year <= 9999 ==>
              && s[4] == '-' && s[7] == '-'
              && AllDigits(s[..4]) && AllDigits(s[5..7]) && AllDigits(s[8..])
              && ValueOf(s[..4]) == d.year
              && ValueOf(s[5..7]) == d.month
              && ValueOf(s[8..]) == d.day
  {
    var y, m, dd := YearText(d.year), Pad(d.month, 2), Pad(d.day, 2);
    DashedFields(y, m, dd);
    y + "-" + m + "-" + dd
  }

  /** Where the three fields sit in `y-m-dd` when month and day have two digits. */
  lemma DashedFields(y: string, m: string, dd: string)
    requires forall i :: 0 <= i < |y| ==> IsDigit(y[i]) || y[i] == '-'
    requires |m| == 2 && |dd| == 2 && AllDigits(m) && AllDigits(dd)
    ensures var s := y + "-" + m + "-" + dd;
            && |s| == |y| + 6
            && s[..|y|] == y && s[|y|] == '-' && s[|y| + 1..|y| + 3] == m
            && s[|y| + 3] == '-' && s[|y| + 4..] == dd
            && forall i :: 0 <= i < |s| ==> IsDigit(s[i]) || s[i] == '-'
  {
    var s := y + "-" + m + "-" + dd;
    assert s[|y| + 1..|y| + 3] == m;
    assert s[|y| + 4..] == dd;
    assert s[..|y|] == y;
    forall i | 0 <= i < |s| ensures IsDigit(s[i]) || s[i] == '-' {
      if i < |y| { assert s[i] == y[i]; }
      else if |y| < i < |y| + 3 { assert s[i] == m[i - |y| - 1]; }
      else if |y| + 3 < i { assert s[i] == dd[i - |y| - 4]; }
    }
  }

  /** `time.Parse("2006-01-02", s)`: exactly four year digits, '-', two month
      digits, '-', two day digits, nothing else; the month must be 1..12 and the
      day must exist in that month of that year. */
  function ParseDate(s: string): (r: Result<Date>)
    ensures r.Ok? ==> 0 <= r.value.year <= 9999
  {
    if |s| == 10 && AllDigits(s[..4]) && s[4] == '-' && AllDigits(s[5..7])
       && s[7] == '-' && AllDigits(s[8..])
    then
      var year, month, day := ValueOf(s[..4]), ValueOf(s[5..7]), ValueOf(s[8..]);
      ValueOfBound(s[..4]);
      if 1 <= month <= 12 && 1 <= day <= DaysIn(month, year) then
        Ok(CivilDate(year, month, day))
      else
        Err(BadTimeText(s))
    else
      Err(BadTimeText(s))
  }

  /** `Date.MarshalJSON`: the date text in double quotes; it never fails. */
  function MarshalDate(d: Date): (b: string)
    ensures |b| >= 2 && b[0] == '"' && b[|b| - 1] == '"'
    ensures b[1..|b| - 1] == FormatDate(d)
  {
    "\"" + FormatDate(d) + "\""
  }

  /** `Date.UnmarshalJSON` on receiver `v`: strips every leading and trailing
      double quote and parses what is left. The receiver is replaced only when the
      parse succeeds; on failure it is returned unchanged with the parse error. */
  function UnmarshalDate(v: Date, b: string): (r: (Date, Option<Error>))
    ensures r.1.None? <==> ParseDate(Trim(b, '"')).Ok?
    ensures r.1.None? ==> Ok(r.0) == ParseDate(Trim(b, '"'))
    ensures r.1.Some? ==> r.0 == v && Err(r.1.value) == ParseDate(Trim(b, '"'))
  {
    match ParseDate(Trim(b, '"'))
    case Ok(d) => (d, None)
    case Err(e) => (v, Some(e))
  }

  /** Reading a date's own text gives the date back. */
  lemma DateTextRoundTrip(d: Date)
    requires 0 <= d.year <= 9999
    ensures ParseDate(FormatDate(d)) == Ok(d)
  {
  }

  /** The only text that parses to a date is that date's own text: the layout has
      one spelling per date. */
  lemma ParsedDateIsCanonical(s: string)
    requires ParseDate(s).Ok?
    ensures FormatDate(ParseDate(s).value) == s
  {
    var d := ParseDate(s).value;
    var t := FormatDate(d);
    assert |s| == 10 && AllDigits(s[..4]) && AllDigits(s[5..7]) && AllDigits(s[8..]);
    assert d.year == ValueOf(s[..4]) && d.month == ValueOf(s[5..7]) && d.day == ValueOf(s[8..]);
    ValueOfInjective(t[..4], s[..4]);
    ValueOfInjective(t[5..7], s[5..7]);
    ValueOfInjective(t[8..], s[8..]);
    SameDateShape(t, s);
  }

  /** Two YYYY-MM-DD shaped texts with equal fields are equal. */
  lemma SameDateShape(a: string, b: string)
    requires |a| == 10 && |b| == 10 && a[4] == b[4] && a[7] == b[7]
    requires a[..4] == b[..4] && a[5..7] == b[5..7] && a[8..] == b[8..]
    ensures a == b
  {
    forall i | 0 <= i < 10 ensures a[i] == b[i] {
      if i < 4 { assert a[i] == a[..4][i] && b[i] == b[..4][i]; }
      else if 5 <= i < 7 { assert a[i] == a[5..7][i - 5] && b[i] == b[5..7][i - 5]; }
      else if 8 <= i { assert a[i] == a[8..][i - 8] && b[i] == b[8..][i - 8]; }
    }
  }

  /** Unmarshalling a marshalled date restores it exactly when its year has four
      digits; other years are written with more characters than the layout reads,
      and the receiver then keeps its old value. */
  lemma {:induction false} DateJsonRoundTrip(v: Date, d: Date)
    ensures 0 <= d.year <= 9999 ==> UnmarshalDate(v, MarshalDate(d)) == (d, None)
    ensures !(0 <= d.year <= 9999) ==>
              UnmarshalDate(v, MarshalDate(d)).0 == v && UnmarshalDate(v, MarshalDate(d)).1.Some?
  {
    var s := FormatDate(d);
    assert s != [] && s[0] != '"' && s[|s| - 1] != '"' by {
      assert |YearText(d.year)| >= 4;
      assert IsDigit(s[0]) || s[0] == '-';
      assert IsDigit(s[|s| - 1]) by {
        var dd := Pad(d.day, 2);
        assert s[|s| - 2..] == dd;
        assert s[|s| - 1] == dd[1];
      }
    }
    TrimExact("\"", s, "\"", '"');
    assert MarshalDate(d) == "\"" + s + "\"";
    if 0 <= d.year <= 9999 {
      DateTextRoundTrip(d);
    }
  }

  // ---------------------------------------------------------------------------
  // Times of day
  // ---------------------------------------------------------------------------

  datatype Clock = Clock(hour: int, minute: int, second: int, nanosecond: int)

  /** A time of day that a Go `time.Time` can denote. */
  type Time = t: Clock |
    && 0 <= t.hour < 24 && 0 <= t.minute < 60 && 0 <= t.second < 60
    && 0 <= t.nanosecond < 1_000_000_000
    witness Clock(0, 0, 0, 0)

  /** The text of a time of day put together from its fields: the hour, ':',
      the minutes, ':', the seconds, then whatever fraction follows. */
  function TimeText(hour: string, minute: string, second: string, fraction: string): string {
    hour + ([':'] + (minute + ([':'] + (second + fraction))))
  }

  /** Where each field sits in a time text. */
  lemma TimeTextFields(hour: string, minute: string, second: string, fraction: string)
    requires |minute| == 2 && |second| == 2
    ensures var s := TimeText(hour, minute, second, fraction);
            var n := |hour|;
            && |s| == n + 6 + |fraction|
            && s[..n] == hour && s[n] == ':' && s[n + 1..n + 3] == minute
            && s[n + 3] == ':' && s[n + 4..n + 6] == second && s[n + 6..] == fraction
  {
    var s := TimeText(hour, minute, second, fraction);
    var n := |hour|;
    var afterHour := [':'] + (minute + ([':'] + (second + fraction)));
    var afterColon := minute + ([':'] + (second + fraction));
    var afterMinute := [':'] + (second + fraction);
    var afterSecondColon := second + fraction;
    assert s[n..] == afterHour;
    assert s[n + 1..] == afterColon;
    assert s[n + 3..] == afterMinute;
    assert s[n + 4..] == afterSecondColon;
    assert s[n + 1..n + 3] == afterColon[..2];
    assert s[n + 4..n + 6] == afterSecondColon[..2];
  }

  /** `time.Format("15:04:05")`: hours, minutes and seconds, each as two digits;
      the nanoseconds are not written. */
  function FormatTime(t: Time): (s: string)
    ensures |s| == 8 && s[2] == ':' && s[5] == ':'
    ensures AllDigits(s[..2]) && AllDigits(s[3..5]) && AllDigits(s[6..])
    ensures ValueOf(s[..2]) == t.hour && ValueOf(s[3..5]) == t.minute && ValueOf(s[6..]) == t.second
  {
    var h, m, sec := Pad(t.hour, 2), Pad(t.minute, 2), Pad(t.second, 2);
    TimeTextFields(h, m, sec, "");
    TimeText(h, m, sec, "")
  }

  /** Index of the first non-digit at or after `i` (or `|s|`). */
  function DigitRunEnd(s: string, i: nat): (j: nat)
    requires i <= |s|
    ensures i <= j <= |s| && AllDigits(s[i..j])
    ensures j < |s| ==> !IsDigit(s[j])
    decreases |s| - i
  {
    if i == |s| || !IsDigit(s[i]) then i
    else
      var j := DigitRunEnd(s, i + 1);
      assert s[i..j] == [s[i]] + s[i + 1..j];
      j
  }

  /** The nine nanosecond digits a run of fraction digits stands for: its first
      nine digits, right-padded with zeros when it has fewer. */
  function NineDigits(digits: string): (nine: string)
    requires AllDigits(digits)
    ensures |nine| == 9 && AllDigits(nine)
    ensures |digits| <= 9 ==> nine[..|digits|] == digits && AllChar(nine[|digits|..], '0')
    ensures |digits| > 9 ==> nine == digits[..9]
  {
    var used := if |digits| > 9 then digits[..9] else digits;
    var nine := used + Zeros(9 - |used|);
    assert nine[..|used|] == used && nine[|used|..] == Zeros(9 - |used|);
    assert AllDigits(nine) by {
      forall i | 0 <= i < |nine| ensures IsDigit(nine[i]) {
        if i >= |used| { assert nine[i] == Zeros(9 - |used|)[i - |used|]; }
      }
    }
    nine
  }

  /** The fractional second `time.Parse` accepts right after the seconds field
      although the layout "15:04:05" has none: a '.' or ',' followed by a run of
      digits, all of which are consumed. The first nine digits, right-padded with
      zeros to nine places, are the nanoseconds. Returns the nanoseconds and the
      text that follows; text that does not start a fraction is left alone. */
  function Fraction(t: string): (r: (nat, string))
    ensures r.0 < 1_000_000_000
    ensures |r.1| <= |t| && r.1 == t[|t| - |r.1|..]
    ensures r.1 == t <==> !(|t| >= 2 && (t[0] == '.' || t[0] == ',') && IsDigit(t[1]))
    ensures r.1 == t ==> r.0 == 0
  {
    if |t| >= 2 && (t[0] == '.' || t[0] == ',') && IsDigit(t[1]) then
      var n := DigitRunEnd(t, 1);
      var nine := NineDigits(t[1..n]);
      ValueOfBound(nine);
      assert t[n..] == t[|t| - |t[n..]|..];
      (ValueOf(nine), t[n..])
    else
      (0, t)
  }

  /** What the fraction reader consumes: the separator and the whole run of
      digits after it, which stands for the nanoseconds its first nine digits,
      right-padded, spell. */
  lemma FractionRead(t: string)
    ensures var r := Fraction(t);
            r.1 != t ==>
              var n := |t| - |r.1|;
              && n >= 2 && (t[0] == '.' || t[0] == ',')
              && AllDigits(t[1..n])
              && (r.1 == [] || !IsDigit(r.1[0]))
              && r.0 == ValueOf(NineDigits(t[1..n]))
  {
    if |t| >= 2 && (t[0] == '.' || t[0] == ',') && IsDigit(t[1]) {
      var n := DigitRunEnd(t, 1);
      assert Fraction(t) == (ValueOf(NineDigits(t[1..n])), t[n..]);
      assert |t| - |t[n..]| == n;
    }
  }

  /** `time.Parse("15:04:05", s)` as far as the time of day goes. The hour element
      "15" is not zero-padded, so one or two digits are read for it; minutes and
      seconds take exactly two digits each; an optional fractional second may
      follow; nothing else may. Hours run to 23, minutes and seconds to 59. */
  function ParseTime(s: string): (r: Result<Time>)
    ensures r.Err? ==> r.error == BadTimeText(s)
  {
    if |s| == 0 || !IsDigit(s[0]) then Err(BadTimeText(s))
    else
      var n := HourLength(s);
      if |s| >= n + 6 && s[n] == ':' && s[n + 3] == ':' then
        var fields := ClockFields(s[..n], s[n + 1..n + 3], s[n + 4..n + 6], s[n + 6..]);
        if fields.Some? then Ok(fields.value) else Err(BadTimeText(s))
      else
        Err(BadTimeText(s))
  }

  /** The time the fields of a time text stand for, if any: minutes and seconds
      must be digits, the hour below 24, minutes and seconds below 60, and the
      fraction must be read whole. */
  function ClockFields(hour: string, minute: string, second: string, fraction: string): Option<Time>
    requires AllDigits(hour)
  {
    if AllDigits(minute) && AllDigits(second) then
      var h, m, sec := ValueOf(hour), ValueOf(minute), ValueOf(second);
      var read := Fraction(fraction);
      if h < 24 && m < 60 && sec < 60 && read.1 == "" then Some(Clock(h, m, sec, read.0)) else None
    else
      None
  }

  /** How many digits the hour element "15" reads: two when a second digit
      follows the first, otherwise one. */
  function HourLength(s: string): (n: nat)
    requires |s| >= 1 && IsDigit(s[0])
    ensures 1 <= n <= 2 && n <= |s| && AllDigits(s[..n])
    ensures n == 2 <==> |s| >= 2 && IsDigit(s[1])
  {
    if |s| >= 2 && IsDigit(s[1]) then 2 else 1
  }

  /** Every text the time reader accepts is an hour of one or two digits, ':',
      two minute digits, ':', two second digits and a fraction the fraction
      reader consumes whole; the fields hold the parsed values. */
  lemma ParsedTimeFields(s: string) returns (hour: string, minute: string, second: string, fraction: string)
    requires ParseTime(s).Ok?
    ensures s == TimeText(hour, minute, second, fraction)
    ensures 1 <= |hour| <= 2 && |minute| == 2 && |second| == 2
    ensures AllDigits(hour) && AllDigits(minute) && AllDigits(second)
    ensures var t := ParseTime(s).value;
            && ValueOf(hour) == t.hour && ValueOf(minute) == t.minute && ValueOf(second) == t.second
            && Fraction(fraction) == (t.nanosecond, "")
  {
    var n := ParsedTimeShape(s);
    hour, minute, second, fraction := s[..n], s[n + 1..n + 3], s[n + 4..n + 6], s[n + 6..];
    SlicedTimeText(s, n);
    ClockFieldsRead(hour, minute, second, fraction);
  }

  /** An accepted time text has its colons after the hour and after the minutes,
      and its fields stand for the time it parses to. */
  lemma ParsedTimeShape(s: string) returns (n: nat)
    requires ParseTime(s).Ok?
    ensures 1 <= n <= 2 && n + 6 <= |s| && s[n] == ':' && s[n + 3] == ':' && AllDigits(s[..n])
    ensures ClockFields(s[..n], s[n + 1..n + 3], s[n + 4..n + 6], s[n + 6..]) == Some(ParseTime(s).value)
  {
    n := HourLength(s);
  }

  /** What fields that stand for a time hold. */
  lemma ClockFieldsRead(hour: string, minute: string, second: string, fraction: string)
    requires AllDigits(hour) && ClockFields(hour, minute, second, fraction).Some?
    ensures AllDigits(minute) && AllDigits(second)
    ensures var t := ClockFields(hour, minute, second, fraction).value;
            && ValueOf(hour) == t.hour && ValueOf(minute) == t.minute && ValueOf(second) == t.second
            && Fraction(fraction) == (t.nanosecond, "")
  {
  }

  /** A text with colons at `n` and `n + 3` is the time text of its slices. */
  lemma SlicedTimeText(s: string, n: nat)
    requires n + 6 <= |s| && s[n] == ':' && s[n + 3] == ':'
    ensures s == TimeText(s[..n], s[n + 1..n + 3], s[n + 4..n + 6], s[n + 6..])
  {
    var second, fraction := s[n + 4..n + 6], s[n + 6..];
    assert s[n + 4..] == second + fraction;
    assert s[n + 3..] == [':'] + (second + fraction);
    assert s[n + 1..] == s[n + 1..n + 3] + ([':'] + (second + fraction));
    assert s[n..] == [':'] + (s[n + 1..n + 3] + ([':'] + (second + fraction)));
    assert s == s[..n] + s[n..];
  }

  /** Conversely, every such text is accepted, with those values, when the hour
      is below 24 and the minute and second below 60. */
  lemma TimeFieldsParse(hour: string, minute: string, second: string, fraction: string)
    requires 1 <= |hour| <= 2 && |minute| == 2 && |second| == 2
    requires AllDigits(hour) && AllDigits(minute) && AllDigits(second)
    requires ValueOf(hour) < 24 && ValueOf(minute) < 60 && ValueOf(second) < 60
    requires Fraction(fraction).1 == ""
    ensures ParseTime(TimeText(hour, minute, second, fraction))
              == Ok(Clock(ValueOf(hour), ValueOf(minute), ValueOf(second), Fraction(fraction).0))
  {
    var s := TimeText(hour, minute, second, fraction);
    var n := |hour|;
    TimeTextHour(hour, minute, second, fraction);
    TimeTextFields(hour, minute, second, fraction);
    ParseShapedTime(s, n);
  }

  /** The hour reader reads exactly the hour field of a time text. */
  lemma TimeTextHour(hour: string, minute: string, second: string, fraction: string)
    requires 1 <= |hour| <= 2 && AllDigits(hour)
    ensures var s := TimeText(hour, minute, second, fraction);
            |s| >= 1 && IsDigit(s[0]) && HourLength(s) == |hour|
  {
    var s := TimeText(hour, minute, second, fraction);
    assert s[..|hour|] == hour;
    assert IsDigit(s[0]) by { assert s[0] == hour[0]; }
    if |hour| == 1 {
      assert s[1] == ':';
    } else {
      assert IsDigit(s[1]) by { assert s[1] == hour[1]; }
    }
  }

  /** A text whose colons sit after the hour the hour reader reads parses to
      the time its fields stand for, if they stand for one. */
  lemma ParseShapedTime(s: string, n: nat)
    requires |s| >= 1 && IsDigit(s[0]) && HourLength(s) == n
    requires n + 6 <= |s| && s[n] == ':' && s[n + 3] == ':'
    ensures var fields := ClockFields(s[..n], s[n + 1..n + 3], s[n + 4..n + 6], s[n + 6..]);
            ParseTime(s) == if fields.Some? then Ok(fields.value) else Err(BadTimeText(s))
  {
    assert |s| != 0 && IsDigit(s[0]);
    assert |s| >= HourLength(s) + 6 && s[HourLength(s)] == ':' && s[HourLength(s) + 3] == ':';
  }

  /** An eight-character text the time reader accepts is the text of the time it
      parses to: with no room for a fraction or a short hour, the layout has one
      spelling per time. */
  lemma ParsedTimeIsCanonical(s: string)
    requires |s| == 8 && ParseTime(s).Ok?
    ensures FormatTime(ParseTime(s).value) == s
  {
    var hour, minute, second, fraction := ParsedTimeFields(s);
    TimeTextFields(hour, minute, second, fraction);
    assert |hour| == 2 && fraction == "";
    PadOfValue(hour);
    PadOfValue(minute);
    PadOfValue(second);
  }

  /** `Time.MarshalJSON`: the HH:MM:SS text itself, with no surrounding quotes
      (unlike `Date`); it never fails. */
  function MarshalTime(t: Time): (b: string)
    ensures '"' !in b
    ensures |b| == 8 && b[2] == ':' && b[5] == ':'
  {
    var s := FormatTime(t);
    assert forall i :: 0 <= i < |s| && i != 2 && i != 5 ==> IsDigit(s[i]) by {
      forall i | 0 <= i < |s| && i != 2 && i != 5 ensures IsDigit(s[i]) {
        if i < 2 { assert s[i] == s[..2][i]; }
        else if i < 5 { assert s[i] == s[3..5][i - 3]; }
        else { assert s[i] == s[6..][i - 6]; }
      }
    }
    s
  }

  /** `Time.UnmarshalJSON` on receiver `v`: strips surrounding double quotes and
      parses HH:MM:SS; the receiver is replaced only on success. */
  function UnmarshalTime(v: Time, b: string): (r: (Time, Option<Error>))
    ensures r.1.None? <==> ParseTime(Trim(b, '"')).Ok?
    ensures r.1.None? ==> Ok(r.0) == ParseTime(Trim(b, '"'))
    ensures r.1.Some? ==> r.0 == v && Err(r.1.value) == ParseTime(Trim(b, '"'))
  {
    match ParseTime(Trim(b, '"'))
    case Ok(t) => (t, None)
    case Err(e) => (v, Some(e))
  }

  /** What `Time.UnmarshalJSON` accepts: once quotes are trimmed, an hour of one
      or two digits, two-digit minutes and seconds and a fraction read whole,
      joined by colons; the receiver then holds the values of those fields. */
  lemma UnmarshalTimeAccepted(v: Time, b: string) returns (hour: string, minute: string, second: string, fraction: string)
    requires UnmarshalTime(v, b).1.None?
    ensures Trim(b, '"') == TimeText(hour, minute, second, fraction)
    ensures 1 <= |hour| <= 2 && |minute| == 2 && |second| == 2
    ensures AllDigits(hour) && AllDigits(minute) && AllDigits(second)
    ensures var t := UnmarshalTime(v, b).0;
            && ValueOf(hour) == t.hour && ValueOf(minute) == t.minute && ValueOf(second) == t.second
            && Fraction(fraction) == (t.nanosecond, "")
  {
    hour, minute, second, fraction := ParsedTimeFields(Trim(b, '"'));
  }

  /** Conversely, `Time.UnmarshalJSON` accepts every such text, bare or quoted,
      when its hour is below 24 and its minutes and seconds below 60. */
  lemma UnmarshalTimeFields(v: Time, hour: string, minute: string, second: string, fraction: string)
    requires 1 <= |hour| <= 2 && |minute| == 2 && |second| == 2
    requires AllDigits(hour) && AllDigits(minute) && AllDigits(second)
    requires ValueOf(hour) < 24 && ValueOf(minute) < 60 && ValueOf(second) < 60
    requires Fraction(fraction).1 == ""
    ensures var text := TimeText(hour, minute, second, fraction);
            var t := Clock(ValueOf(hour), ValueOf(minute), ValueOf(second), Fraction(fraction).0);
            && UnmarshalTime(v, text) == (t, None)
            && UnmarshalTime(v, "\"" + text + "\"") == (t, None)
  {
    var text := TimeText(hour, minute, second, fraction);
    assert '"' !in text by {
      DigitsQuoteFree(hour);
      DigitsQuoteFree(minute);
      DigitsQuoteFree(second);
      FractionQuoteFree(fraction);
    }
    QuoteFreeTrim(text);
    TimeFieldsParse(hour, minute, second, fraction);
  }

  lemma DigitsQuoteFree(s: string)
    requires AllDigits(s)
    ensures '"' !in s
  {
    forall i | 0 <= i < |s| ensures s[i] != '"' {
      assert IsDigit(s[i]);
    }
  }

  /** A fraction read whole is a separator and digits, so it holds no quote. */
  lemma FractionQuoteFree(t: string)
    requires Fraction(t).1 == ""
    ensures '"' !in t
  {
    if t != "" {
      FractionRead(t);
      DigitsQuoteFree(t[1..]);
      assert t == [t[0]] + t[1..];
    }
  }

  /** Reading a time's own HH:MM:SS text gives back its hours, minutes and
      seconds; the nanoseconds were never written. */
  lemma TimeTextRoundTrip(t: Time)
    ensures ParseTime(FormatTime(t)) == Ok(Clock(t.hour, t.minute, t.second, 0))
  {
    var h, m, sec := Pad(t.hour, 2), Pad(t.minute, 2), Pad(t.second, 2);
    assert FormatTime(t) == TimeText(h, m, sec, "");
    TimeFieldsParse(h, m, sec, "");
  }

  /** `Time` accepts its own marshalled text, bare or quoted. */
  lemma TimeJsonRoundTrip(v: Time, t: Time)
    ensures UnmarshalTime(v, MarshalTime(t)) == (Clock(t.hour, t.minute, t.second, 0), None)
    ensures UnmarshalTime(v, "\"" + MarshalTime(t) + "\"") == (Clock(t.hour, t.minute, t.second, 0), None)
  {
    TimeTextUnquoted(t);
    TimeTextRoundTrip(t);
  }

  /** Stripping quotes from the marshalled time, bare or quoted, leaves its text. */
  lemma TimeTextUnquoted(t: Time)
    ensures Trim(MarshalTime(t), '"') == FormatTime(t)
    ensures Trim("\"" + MarshalTime(t) + "\"", '"') == FormatTime(t)
  {
    var s := MarshalTime(t);
    assert s == FormatTime(t);
    QuoteFreeTrim(s);
  }

  /** Text without a double quote survives quote trimming, bare or quoted. */
  lemma QuoteFreeTrim(s: string)
    requires '"' !in s
    ensures Trim(s, '"') == s
    ensures Trim("\"" + s + "\"", '"') == s
  {
    assert s == [] || (s[0] != '"' && s[|s| - 1] != '"');
    TrimExact("", s, "", '"');
    assert "" + s + "" == s;
    TrimExact("\"", s, "\"", '"');
  }
}

=== FILE: facade.dfy ===
/** The API facade (client.go, `Client`): the endpoint paths and payloads it
    composes, and what it makes of the transport's answers.

    The facade talks to any implementation of the `HTTPClient` interface, so the
    interface is a parameter here, and so are the `encoding/json` codecs of the
    resource types.
 */
module Facade {
  import opened Results
  import opened Text
  import opened Calendar
  import opened Query

  /** The resource fields the facade itself reads or writes; the others travel
      through the JSON codecs untouched. */
  datatype Account = Account(id: string, name: string)
  datatype Category = Category(id: string, name: string, kind: string)
  datatype Entry = Entry(
    id: Option<string>,
    date: string,
    account: string,
    category: string,
    description: Option<string>,
    tags: seq<string>)

  /** The `HTTPClient` interface. A `RestHTTPClient` fills it with the verbs of
      the transport and the pagination loop. No modelled operation deletes;
      `delete` is here because the interface has it. */
  datatype HttpClient = HttpClient(
    get: (string, string) -> Result<string>,
    getMultiple: (string, string) -> Result<seq<string>>,
    post: (string, string) -> Result<string>,
    update: (string, string) -> Result<string>,
    delete: string -> Option<Error>)

  /** `json.Marshal` and `json.Unmarshal` for the resource types; decoding one
      account may yield `None` (the JSON `null`). */
  datatype Json = Json(
    decodeAccounts: string -> Result<seq<Account>>,
    decodeAccount: string -> Result<Option<Account>>,
    encodeCategory: Category -> Result<string>,
    decodeEntries: string -> Result<seq<Entry>>,
    encodeEntry: Entry -> Result<string>)

  // ---------------------------------------------------------------------------
  // Endpoint paths and payloads
  // ---------------------------------------------------------------------------

  const AccountsEndpoint: string := "accounts"
  const CategoriesEndpoint: string := "categories"
  const EntriesEndpoint: string := "entries"

  /** `fmt.Sprintf("accounts/%s", id)`: the path of one account. Its segments
      read back as the collection and the ID, for an ID without '/'. */
  function AccountPath(id: string): (path: string)
    ensures '/' !in id ==> Split(path, '/') == [AccountsEndpoint, id]
  {
    var path := AccountsEndpoint + "/" + id;
    assert '/' !in id ==> Split(path, '/') == [AccountsEndpoint, id] by {
      if '/' !in id {
        var parts := [AccountsEndpoint, id];
        assert path == Join(parts, '/') by {
          assert parts[1..] == [id];
        }
        assert '/' !in parts[0] && '/' !in parts[1];
        SplitJoin(parts, '/');
      }
    }
    path
  }

  const PositionPrefix: string := "{\"position\": "

  /** `fmt.Sprintf(`{"position": %s}`, strconv.Itoa(position))`. */
  function PositionPayload(position: int): string {
    PositionPrefix + Itoa(position) + "}"
  }

  /** Reads the position back out of a `{"position": N}` payload. */
  function ReadPosition(payload: string): Option<int> {
    if |payload| >= |PositionPrefix| + 1
       && payload[..|PositionPrefix|] == PositionPrefix
       && payload[|payload| - 1] == '}'
    then ReadInt(payload[|PositionPrefix|..|payload| - 1])
    else None
  }

  /** The position payload carries exactly the position, in decimal. */
  lemma PositionRoundTrip(position: int)
    ensures ReadPosition(PositionPayload(position)) == Some(position)
  {
    var digits := Itoa(position);
    var payload := PositionPayload(position);
    assert payload[..|PositionPrefix|] == PositionPrefix;
    assert payload[|PositionPrefix|..|payload| - 1] == digits;
  }

  // ---------------------------------------------------------------------------
  // Accounts
  // ---------------------------------------------------------------------------

  /** `Accounts`: a GET of the collection with the query string of the given
      parameters, the empty query string when there are none. */
  function Accounts(h: HttpClient, json: Json, query: Option<string>): (r: Result<seq<Account>>)
    ensures var res := h.get(AccountsEndpoint, if query.Some? then query.value else "");
            && (res.Err? ==> r == Err(res.error))
            && (res.Ok? ==> r == json.decodeAccounts(res.value))
  {
    var res :- h.get(AccountsEndpoint, if query.Some? then query.value else "");
    json.decodeAccounts(res)
  }

  /** `GetAccount`: a GET of the account's path with the empty query string. */
  function GetAccount(h: HttpClient, json: Json, id: string): (r: Result<Option<Account>>)
    ensures var res := h.get(AccountPath(id), "");
            && (res.Err? ==> r == Err(res.error))
            && (res.Ok? ==> r == json.decodeAccount(res.value))
  {
    var res :- h.get(AccountPath(id), "");
    json.decodeAccount(res)
  }

  /** The index of the first account named exactly `name`. */
  function FirstNamed(accounts: seq<Account>, name: string): (i: Option<nat>)
    ensures i.None? <==> forall k :: 0 <= k < |accounts| ==> accounts[k].name != name
    ensures i.Some? ==> i.value < |accounts| && accounts[i.value].name == name
    ensures i.Some? ==> forall k :: 0 <= k < i.value ==> accounts[k].name != name
  {
    if accounts == [] then None
    else if accounts[0].name == name then Some(0)
    else match FirstNamed(accounts[1..], name)
      case None => None
      case Some(j) => Some(j + 1)
  }

  /** `SearchAccount`: the first account, in list order, whose name equals
      `name`; `None` (Go's nil, nil) when none does; the error of `Accounts`
      otherwise. */
  function SearchAccount(h: HttpClient, json: Json, name: string): (r: Result<Option<Account>>)
    ensures var all := Accounts(h, json, None);
            && (all.Err? ==> r == Err(all.error))
            && (all.Ok? ==> r.Ok?)
            && (all.Ok? ==> (r.value.None? <==> forall k :: 0 <= k < |all.value| ==> all.value[k].name != name))
            && (all.Ok? && r.value.Some? ==>
                  exists i :: 0 <= i < |all.value| && all.value[i] == r.value.value && r.value.value.name == name
                    && forall k :: 0 <= k < i ==> all.value[k].name != name)
  {
    var accounts :- Accounts(h, json, None);
    match FirstNamed(accounts, name)
    case None => Ok(None)
    case Some(i) => Ok(Some(accounts[i]))
  }

  /** `MoveAccount`: posts the position payload to the account's path; Go's
      error, `None` for nil. */
  function MoveAccount(h: HttpClient, account: Account, position: int): (err: Option<Error>)
    ensures var res := h.post(AccountPath(account.id), PositionPayload(position));
            && (err.None? <==> res.Ok?)
            && (err.Some? ==> err.value == res.error)
  {
    match h.post(AccountPath(account.id), PositionPayload(position))
    case Err(e) => Some(e)
    case Ok(_) => None
  }

  // ---------------------------------------------------------------------------
  // Creating resources
  // ---------------------------------------------------------------------------

  /** `CreateCategory`: encodes the category, posts it, and gives it the ID the
      server returned. A failure returns the encoding error or else the POST
      error, and leaves the category as it was; on success only its ID changes. */
  function CreateCategory(h: HttpClient, json: Json, category: Category): (r: (Category, Option<Error>))
    ensures r.1.None? <==> json.encodeCategory(category).Ok? && h.post(CategoriesEndpoint, json.encodeCategory(category).value).Ok?
    ensures r.1.None? ==> r.0.id == h.post(CategoriesEndpoint, json.encodeCategory(category).value).value
    ensures json.encodeCategory(category).Err? ==> r.1 == Some(json.encodeCategory(category).error)
    ensures json.encodeCategory(category).Ok? && h.post(CategoriesEndpoint, json.encodeCategory(category).value).Err? ==>
              r.1 == Some(h.post(CategoriesEndpoint, json.encodeCategory(category).value).error)
    ensures r.1.Some? ==> r.0 == category
    ensures r.0.name == category.name && r.0.kind == category.kind
  {
    match json.encodeCategory(category)
    case Err(e) => (category, Some(e))
    case Ok(payload) =>
      match h.post(CategoriesEndpoint, payload)
      case Err(e) => (category, Some(e))
      case Ok(id) => (category.(id := id), None)
  }

  /** `CreateEntry`: the same for an entry, whose ID becomes present. */
  function CreateEntry(h: HttpClient, json: Json, entry: Entry): (r: (Entry, Option<Error>))
    ensures r.1.None? <==> json.encodeEntry(entry).Ok? && h.post(EntriesEndpoint, json.encodeEntry(entry).value).Ok?
    ensures r.1.None? ==> r.0.id == Some(h.post(EntriesEndpoint, json.encodeEntry(entry).value).value)
    ensures json.encodeEntry(entry).Err? ==> r.1 == Some(json.encodeEntry(entry).error)
    ensures json.encodeEntry(entry).Ok? && h.post(EntriesEndpoint, json.encodeEntry(entry).value).Err? ==>
              r.1 == Some(h.post(EntriesEndpoint, json.encodeEntry(entry).value).error)
    ensures r.1.Some? ==> r.0 == entry
    ensures r.0.(id := entry.id) == entry
  {
    match json.encodeEntry(entry)
    case Err(e) => (entry, Some(e))
    case Ok(payload) =>
      match h.post(EntriesEndpoint, payload)
      case Err(e) => (entry, Some(e))
      case Ok(id) => (entry.(id := Some(id)), None)
  }

  // ---------------------------------------------------------------------------
  // Entries
  // ---------------------------------------------------------------------------

  predicate AllDecode(decode: string -> Result<seq<Entry>>, pages: seq<string>) {
    forall i :: 0 <= i < |pages| ==> decode(pages[i]).Ok?
  }

  /** The entries of every page, in page order. */
  function Flatten(decode: string -> Result<seq<Entry>>, pages: seq<string>): seq<Entry>
    requires AllDecode(decode, pages)
  {
    if pages == [] then []
    else Flatten(decode, pages[..|pages| - 1]) + decode(pages[|pages| - 1]).value
  }

  /** Page `i` is the first that does not decode. */
  predicate FirstFailure(decode: string -> Result<seq<Entry>>, pages: seq<string>, i: int) {
    && 0 <= i < |pages|
    && decode(pages[i]).Err?
    && forall j :: 0 <= j < i ==> decode(pages[j]).Ok?
  }

  /** Every page's entries form one block of the result, the blocks in page order. */
  lemma {:induction false} FlattenAppend(decode: string -> Result<seq<Entry>>, first: seq<string>, second: seq<string>)
    requires AllDecode(decode, first) && AllDecode(decode, second)
    ensures AllDecode(decode, first + second)
    ensures Flatten(decode, first + second) == Flatten(decode, first) + Flatten(decode, second)
    decreases |second|
  {
    if second != [] {
      var init := second[..|second| - 1];
      var last := second[|second| - 1];
      assert (first + second)[..|first + second| - 1] == first + init;
      assert AllDecode(decode, init);
      FlattenAppend(decode, first, init);
      assert (first + second)[|first + second| - 1] == last;
    } else {
      assert first + second == first;
    }
  }

  /** The decoding loop of `Entries`: appends each page's entries in page order,
      and returns no entries at all once a page fails to decode. */
  method DecodePages(decode: string -> Result<seq<Entry>>, pages: seq<string>)
    returns (entries: seq<Entry>, err: Option<Error>)
    ensures err.None? <==> AllDecode(decode, pages)
    ensures err.None? ==> entries == Flatten(decode, pages)
    ensures err.Some? ==> entries == [] && exists i :: FirstFailure(decode, pages, i) && err.value == decode(pages[i]).error
  {
    entries := [];
    var i := 0;
    while i < |pages|
      invariant 0 <= i <= |pages|
      invariant AllDecode(decode, pages[..i])
      invariant entries == Flatten(decode, pages[..i])
    {
      var page := decode(pages[i]);
      if page.Err? {
        assert FirstFailure(decode, pages, i) by {
          assert forall j :: 0 <= j < i ==> pages[..i][j] == pages[j];
        }
        return [], Some(page.error);
      }
      assert pages[..i + 1][..i] == pages[..i];
      entries := entries + page.value;
      i := i + 1;
    }
    assert pages[..i] == pages;
    return entries, None;
  }

  /** How `Entries` ends: it returns, or an invalid query stops the process
      (`log.Fatal`) with the validation message. */
  datatype Exit<T> = Returns(result: Result<T>) | Fatal(message: string)

  /** The query string `Entries` sends: none without parameters, the encoded
      `from`/`to` pair otherwise. */
  function EntryQuery(params: Option<EntryQueryParams>): string {
    if params.Some? then GetQueryString(params.value).0 else ""
  }

  /** `Entries`: validates the parameters, fetches every page of the entry list,
      and concatenates the decoded pages in order; any failure, of the fetch or of
      one page's decoding, returns no entries. */
  method Entries(h: HttpClient, json: Json, params: Option<EntryQueryParams>) returns (exit: Exit<seq<Entry>>)
    ensures exit.Fatal? <==> params.Some? && (params.value.from == ZeroDate || params.value.to == ZeroDate)
    ensures exit.Fatal? ==> Some(exit.message) == GetQueryString(params.value).1
    ensures exit.Returns? ==>
              var res := h.getMultiple(EntriesEndpoint, EntryQuery(params));
              && (res.Err? ==> exit.result == Err(res.error))
              && (res.Ok? ==> (exit.result.Ok? <==> AllDecode(json.decodeEntries, res.value)))
              && (res.Ok? && exit.result.Ok? ==> exit.result.value == Flatten(json.decodeEntries, res.value))
              && (res.Ok? && exit.result.Err? ==>
                    exists i :: FirstFailure(json.decodeEntries, res.value, i)
                      && exit.result.error == json.decodeEntries(res.value[i]).error)
  {
    var query := "";
    if params.Some? {
      var (q, failure) := GetQueryString(params.value);
      if failure.Some? {
        return Fatal(failure.value);
      }
      query := q;
    }
    var responses := h.getMultiple(EntriesEndpoint, query);
    if responses.Err? {
      return Returns(Err(responses.error));
    }
    var entries, err := DecodePages(json.decodeEntries, responses.value);
    if err.Some? {
      return Returns(Err(err.value));
    }
    return Returns(Ok(entries));
  }
}

=== FILE: links.dfy ===
/** Following the `Link` response header to the next page (http_client.go,
    `extractNextLink` and `extractQueryLink`).

    The client finds the leftmost match of the regular expression
    `<([^<>]*)>; rel="next"` in the header, then the leftmost match of `\?[^<>]+`
    inside that matched text, and trims '?' from both ends of it. The regular
    expressions are modelled by the positions at which they match; because
    `[^<>]*` cannot cross an angle bracket, each has at most one match per start
    position, so "leftmost match" is "smallest start position".
 */
module Links {
  import opened Results
  import opened Text

  predicate IsAngle(c: char) {
    c == '<' || c == '>'
  }

  /** The text that must follow the closing '>' of the next-page link. */
  const RelNext: string := "; rel=\"next\""

  /** End of the `[^<>]*` run starting at `i`: the first angle bracket at or
      after `i`, or the end of the text. */
  function RunEnd(s: string, i: nat): (j: nat)
    requires i <= |s|
    ensures i <= j <= |s|
    ensures forall k :: i <= k < j ==> !IsAngle(s[k])
    ensures j < |s| ==> IsAngle(s[j])
    decreases |s| - i
  {
    if i == |s| || IsAngle(s[i]) then i else RunEnd(s, i + 1)
  }

  /** `RunEnd` is determined by the first angle bracket. */
  lemma RunEndAt(s: string, i: nat, j: nat)
    requires i <= j <= |s|
    requires forall k :: i <= k < j ==> !IsAngle(s[k])
    requires j < |s| ==> IsAngle(s[j])
    ensures RunEnd(s, i) == j
  {
  }

  /** `<([^<>]*)>; rel="next"` matches starting at `i`. */
  predicate NextLinkAt(s: string, i: nat) {
    && i < |s|
    && s[i] == '<'
    && var j := RunEnd(s, i + 1);
    && j < |s|
    && s[j] == '>'
    && RelNext <= s[j + 1..]
  }

  /** The leftmost start, at or after `i`, of a next-page link. */
  function FirstNextLink(s: string, i: nat): (r: Option<nat>)
    requires i <= |s|
    ensures r.Some? ==> i <= r.value < |s| && NextLinkAt(s, r.value)
    ensures r.Some? ==> forall k :: i <= k < r.value ==> !NextLinkAt(s, k)
    ensures r.None? ==> forall k :: i <= k < |s| ==> !NextLinkAt(s, k)
    decreases |s| - i
  {
    if i == |s| then None
    else if NextLinkAt(s, i) then Some(i)
    else FirstNextLink(s, i + 1)
  }

  /** The matched text of the next-page link found by the client's first
      regular expression, `nil` when the header has none: the leftmost
      `<url>; rel="next"` of the header, whole. */
  function FindNextLink(links: string): (m: Option<string>)
    ensures m.None? <==> forall k :: 0 <= k < |links| ==> !NextLinkAt(links, k)
    ensures m.Some? <==> NextTarget(links).Some?
    ensures m.Some? ==> m.value == "<" + NextTarget(links).value + ">" + RelNext
  {
    match FirstNextLink(links, 0)
    case None => None
    case Some(i) =>
      MatchedLinkText(links, i);
      Some(links[i..RunEnd(links, i + 1) + 1 + |RelNext|])
  }

  /** `\?[^<>]+` matches starting at `i`: a '?' followed by at least one
      character that is not an angle bracket. */
  predicate QueryAt(m: string, i: nat) {
    i + 1 < |m| && m[i] == '?' && !IsAngle(m[i + 1])
  }

  /** The leftmost start, at or after `i`, of a query match. */
  function FirstQuery(m: string, i: nat): (r: Option<nat>)
    requires i <= |m|
    ensures r.Some? ==> i <= r.value < |m| && QueryAt(m, r.value)
    ensures r.Some? ==> forall k :: i <= k < r.value ==> !QueryAt(m, k)
    ensures r.None? ==> forall k :: i <= k < |m| ==> !QueryAt(m, k)
    decreases |m| - i
  {
    if i == |m| then None
    else if QueryAt(m, i) then Some(i)
    else FirstQuery(m, i + 1)
  }

  /** `extractQueryLink`: the leftmost `\?[^<>]+` match, `None` for `nil`. The
      match is a '?' followed by a non-empty run free of angle brackets; it is
      the text of `m` from the leftmost position where the pattern matches up
      to the first angle bracket after it, or to the end of `m`. */
  function ExtractQueryLink(m: string): (q: Option<string>)
    ensures q.None? <==> forall k :: 0 <= k < |m| ==> !QueryAt(m, k)
    ensures q.Some? ==> |q.value| >= 2 && q.value[0] == '?'
    ensures q.Some? ==> forall k :: 0 <= k < |q.value| ==> !IsAngle(q.value[k])
    ensures q.Some? ==>
              exists i :: 0 <= i && i + |q.value| <= |m| && QueryAt(m, i)
                          && q.value == m[i..i + |q.value|]
                          && (forall k :: 0 <= k < i ==> !QueryAt(m, k))
                          && (i + |q.value| == |m| || IsAngle(m[i + |q.value|]))
  {
    match FirstQuery(m, 0)
    case None => None
    case Some(i) =>
      var q := m[i..RunEnd(m, i + 1)];
      assert i + |q| == RunEnd(m, i + 1);
      Some(q)
  }

  /** The cursor `extractNextLink` takes from a matched link: the query match,
      or "" for `nil`, with '?' trimmed from both ends. */
  function QueryCursor(m: string): string {
    var q := ExtractQueryLink(m);
    Trim(if q.Some? then q.value else "", '?')
  }

  /** `extractNextLink`: the pagination cursor of the next page, "" when there is
      none. */
  function ExtractNextLink(links: string): string {
    match FindNextLink(links)
    case None => ""
    case Some(m) => QueryCursor(m)
  }

  /** The cursor is "" without a next-page link; it never holds an angle bracket
      and never starts or ends with '?'. */
  lemma NextCursorShape(links: string)
    ensures var cursor := ExtractNextLink(links);
            && (FindNextLink(links).None? ==> cursor == "")
            && '<' !in cursor && '>' !in cursor
            && (cursor == [] || (cursor[0] != '?' && cursor[|cursor| - 1] != '?'))
  {
    if FindNextLink(links).Some? {
      var q := ExtractQueryLink(FindNextLink(links).value);
      var text := if q.Some? then q.value else "";
      assert '<' !in text && '>' !in text;
      TrimKeepsAbsent(text, '?', '<');
      TrimKeepsAbsent(text, '?', '>');
    }
  }

  /** The cursor a next-page URL carries: everything after its first '?', with
      '?' trimmed from both ends; "" when the URL has no '?'. */
  function UrlCursor(url: string): string {
    match IndexOf(url, '?')
    case None => ""
    case Some(p) => Trim(url[p..], '?')
  }

  /** The URL between the brackets of the leftmost next-page link. */
  function NextTarget(links: string): Option<string> {
    match FirstNextLink(links, 0)
    case None => None
    case Some(i) => Some(links[i + 1..RunEnd(links, i + 1)])
  }

  /** What `extractNextLink` returns, stated on the URL of the next-page link:
      everything after its first '?', with '?' trimmed from both ends, and "" when
      there is no link or the URL has no '?'. */
  lemma NextLinkCursor(links: string)
    ensures ExtractNextLink(links) ==
              match NextTarget(links)
              case None => ""
              case Some(url) => UrlCursor(url)
  {
    match FirstNextLink(links, 0)
    case None =>
      assert FindNextLink(links) == None;
      assert NextTarget(links) == None;
    case Some(i) =>
      var j := RunEnd(links, i + 1);
      var url := links[i + 1..j];
      var m := links[i..j + 1 + |RelNext|];
      assert NextTarget(links) == Some(url);
      MatchedLinkText(links, i);
      assert FindNextLink(links) == Some(m);
      assert ExtractNextLink(links) == QueryCursor(m);
      MatchedLinkCursor(m, url);
  }

  /** The text of a matched next-page link is `<url>; rel="next"`, with a URL
      free of angle brackets. */
  lemma MatchedLinkText(links: string, i: nat)
    requires NextLinkAt(links, i)
    ensures var j := RunEnd(links, i + 1);
            && links[i..j + 1 + |RelNext|] == "<" + links[i + 1..j] + ">" + RelNext
            && var url := links[i + 1..j]; forall k :: 0 <= k < |url| ==> !IsAngle(url[k])
  {
    var j := RunEnd(links, i + 1);
    assert links[j + 1..][..|RelNext|] == RelNext;
    assert links[i..j + 1 + |RelNext|] == [links[i]] + links[i + 1..j] + [links[j]] + links[j + 1..][..|RelNext|];
  }

  /** `m` is the matched text `<url>; rel="next"`, seen character by character:
      no '?' outside the URL. */
  predicate WrapsUrl(m: string, url: string) {
    && |m| == |url| + 2 + |RelNext|
    && m[0] == '<' && m[|url| + 1] == '>'
    && (forall k :: 1 <= k <= |url| ==> m[k] == url[k - 1])
    && (forall k :: |url| + 1 <= k < |m| ==> m[k] != '?')
  }

  lemma MatchedLinkShape(m: string, url: string)
    requires m == "<" + url + ">" + RelNext
    ensures WrapsUrl(m, url)
  {
    var n := |url|;
    assert '?' !in RelNext;
    forall k | n + 1 <= k < |m|
      ensures m[k] != '?'
    {
      if k > n + 1 {
        assert m[k] == RelNext[k - n - 2];
      }
    }
  }

  /** The cursor taken from one matched link `<url>; rel="next"`. */
  lemma MatchedLinkCursor(m: string, url: string)
    requires m == "<" + url + ">" + RelNext
    requires forall k :: 0 <= k < |url| ==> !IsAngle(url[k])
    ensures QueryCursor(m) == UrlCursor(url)
  {
    MatchedLinkShape(m, url);
    match IndexOf(url, '?')
    case None =>
      UnqueriedLink(m, url);
      assert Trim("", '?') == "";
    case Some(p) =>
      if p + 1 < |url| {
        QueriedLink(m, url, p);
      } else {
        EmptyQueryLink(m, url, p);
      }
  }

  /** A link URL without '?' carries no query match at all. */
  lemma UnqueriedLink(m: string, url: string)
    requires WrapsUrl(m, url)
    requires '?' !in url
    ensures ExtractQueryLink(m) == None
  {
    forall k | 0 <= k < |m|
      ensures !QueryAt(m, k)
    {
      if 1 <= k <= |url| {
        assert m[k] == url[k - 1];
      }
    }
  }

  /** No query match starts before the first '?' of the link URL. */
  lemma NoQueryBefore(m: string, url: string, p: nat)
    requires WrapsUrl(m, url)
    requires IndexOf(url, '?') == Some(p)
    ensures forall k :: 0 <= k <= p ==> !QueryAt(m, k)
  {
    forall k | 1 <= k <= p
      ensures m[k] != '?'
    {
      assert m[k] == url[k - 1];
      assert url[k - 1] in url[..p];
    }
  }

  /** A link URL whose first '?' is followed by more text yields that text, with
      its leading '?', as the query match. */
  lemma QueriedLink(m: string, url: string, p: nat)
    requires WrapsUrl(m, url)
    requires forall k :: 0 <= k < |url| ==> !IsAngle(url[k])
    requires IndexOf(url, '?') == Some(p) && p + 1 < |url|
    ensures ExtractQueryLink(m) == Some(url[p..])
  {
    QueryStart(m, url, p);
    QueryEnd(m, url, p);
    SameRun(m, url, p);
  }

  /** The query match starts at the link URL's first '?'. */
  lemma QueryStart(m: string, url: string, p: nat)
    requires WrapsUrl(m, url)
    requires forall k :: 0 <= k < |url| ==> !IsAngle(url[k])
    requires IndexOf(url, '?') == Some(p) && p + 1 < |url|
    ensures FirstQuery(m, 0) == Some(p + 1)
  {
    NoQueryBefore(m, url, p);
    FirstQueryAt(m, p + 1);
  }

  /** The query match ends at the link's closing '>'. */
  lemma QueryEnd(m: string, url: string, p: nat)
    requires WrapsUrl(m, url)
    requires forall k :: 0 <= k < |url| ==> !IsAngle(url[k])
    requires p + 1 < |url| && FirstQuery(m, 0) == Some(p + 1)
    ensures ExtractQueryLink(m) == Some(m[p + 1..|url| + 1])
  {
    RunEndAt(m, p + 2, |url| + 1);
  }


  lemma SameRun(m: string, url: string, p: nat)
    requires WrapsUrl(m, url)
    requires p < |url|
    ensures m[p + 1..|url| + 1] == url[p..]
  {
    var q := m[p + 1..|url| + 1];
    var u := url[p..];
    forall k | 0 <= k < |q|
      ensures q[k] == u[k]
    {
      assert q[k] == m[p + 1 + k];
    }
  }

  /** The leftmost query match is the first position where one starts. */
  lemma FirstQueryAt(m: string, t: nat)
    requires QueryAt(m, t)
    requires forall k :: 0 <= k < t ==> !QueryAt(m, k)
    ensures FirstQuery(m, 0) == Some(t)
  {
  }

  /** A link URL ending in its only '?' carries no query match. */
  lemma EmptyQueryLink(m: string, url: string, p: nat)
    requires WrapsUrl(m, url)
    requires IndexOf(url, '?') == Some(p) && p + 1 == |url|
    ensures ExtractQueryLink(m) == None
    ensures url[p..] == "?" && Trim(url[p..], '?') == ""
  {
    var n := |url|;
    NoQueryBefore(m, url, p);
    assert !QueryAt(m, p + 1);
    assert url[p..] == "?" + "" + "";
    TrimExact("?", "", "", '?');
  }

  /** The `Link` entry a server writes to point at the next page: the collection
      URL with the cursor as its query. */
  function NextLinkEntry(target: string, cursor: string): string {
    "<" + target + "?" + cursor + ">" + RelNext
  }

  /** A header whose first entry points at the next page yields that entry's
      cursor, whatever entries follow. */
  lemma NextLinkRoundTrip(target: string, cursor: string, rest: string)
    requires '?' !in target && '<' !in target && '>' !in target
    requires '<' !in cursor && '>' !in cursor
    requires cursor == [] || (cursor[0] != '?' && cursor[|cursor| - 1] != '?')
    ensures ExtractNextLink(NextLinkEntry(target, cursor) + rest) == cursor
  {
    var links := NextLinkEntry(target, cursor) + rest;
    EntryTarget(target, cursor, rest);
    QueryOfUrl(target, cursor);
    NextLinkCursor(links);
  }

  /** The first entry's URL is the link target. */
  lemma EntryTarget(target: string, cursor: string, rest: string)
    requires '<' !in target && '>' !in target
    requires '<' !in cursor && '>' !in cursor
    ensures NextTarget(NextLinkEntry(target, cursor) + rest) == Some(target + "?" + cursor)
  {
    var links := NextLinkEntry(target, cursor) + rest;
    var url := target + "?" + cursor;
    var j := |url| + 1;
    assert forall k :: 1 <= k < j ==> links[k] == url[k - 1];
    assert forall k :: 0 <= k < |url| ==> !IsAngle(url[k]) by {
      forall k | 0 <= k < |url|
        ensures !IsAngle(url[k])
      {
        if k < |target| {
          assert url[k] == target[k];
        } else if k > |target| {
          assert url[k] == cursor[k - |target| - 1];
        }
      }
    }
    RunEndAt(links, 1, j);
    assert links[j + 1..][..|RelNext|] == RelNext;
    assert NextLinkAt(links, 0);
    assert links[1..j] == url;
  }

  /** The cursor of `target?cursor`, for a target without '?' and a cursor that
      neither starts nor ends with '?', is the cursor. */
  lemma QueryOfUrl(target: string, cursor: string)
    requires '?' !in target
    requires cursor == [] || (cursor[0] != '?' && cursor[|cursor| - 1] != '?')
    ensures UrlCursor(target + "?" + cursor) == cursor
  {
    var url := target + "?" + cursor;
    assert url[|target|] == '?' && url[..|target|] == target;
    IndexOfFirst(url, '?', |target|);
    assert url[|target|..] == "?" + cursor + "";
    TrimExact("?", cursor, "", '?');
  }

  /** A header with no next-page link, such as one holding only `prev`, `first`
      and `last` entries, yields the empty cursor. */
  lemma LastPageCursor(links: string)
    requires forall k :: 0 <= k < |links| ==> !NextLinkAt(links, k)
    ensures ExtractNextLink(links) == ""
  {
  }

  const ExampleTarget: string := "https://api.example.com/entries"
  const ExampleCursor: string := "from=2020-01-01&page=2"

  /** The example target holds no '?' and no angle bracket, as the round trip
      requires of a target. */
  lemma ExampleTargetPlain()
    ensures '?' !in ExampleTarget && '<' !in ExampleTarget && '>' !in ExampleTarget
  {
  }

  /** The example cursor holds no angle bracket and neither starts nor ends
      with '?', as the round trip requires of a cursor. */
  lemma ExampleCursorPlain()
    ensures '<' !in ExampleCursor && '>' !in ExampleCursor
    ensures ExampleCursor[0] != '?' && ExampleCursor[|ExampleCursor| - 1] != '?'
  {
  }

  /** A typical next-page entry: the cursor is the query of the linked URL. */
  lemma NextLinkExample()
    ensures ExtractNextLink(NextLinkEntry(ExampleTarget, ExampleCursor)) == ExampleCursor
  {
    var entry := NextLinkEntry(ExampleTarget, ExampleCursor);
    assert entry + "" == entry;
    ExampleTargetPlain();
    ExampleCursorPlain();
    NextLinkRoundTrip(ExampleTarget, ExampleCursor, "");
  }
}

=== FILE: location.dfy ===
/** Extracting a created resource's ID from the `Location` response header
    (http_client.go, `parseIDFromLocationHeader`).

    The header value is parsed as a URL and its path is split on '/'; the ID is the
    last piece. `url.Parse` is not modelled: the caller supplies `parsePath`, which
    yields the path of a URL or `None` when `url.Parse` would fail.
 */
module Location {
  import opened Results
  import opened Text

  /** `parseIDFromLocationHeader`. A path with at least one '/' yields the text
      after its last '/', which is empty when the path ends in '/'. A path without
      '/' (the empty path of an empty header among them) yields `NoResourceId`;
      a header `url.Parse` rejects yields `BadUrl`. */
  function ParseIdFromLocation(parsePath: string -> Option<string>, location: string): (r: Result<string>)
    ensures parsePath(location).None? ==> r == Err(BadUrl(location))
    ensures parsePath(location).Some? ==>
              var path := parsePath(location).value;
              && (r.Ok? <==> '/' in path)
              && (r.Err? ==> r.error == NoResourceId)
              && (r.Ok? ==>
                    && '/' !in r.value
                    && |r.value| < |path|
                    && r.value == path[|path| - |r.value|..]
                    && path[|path| - |r.value| - 1] == '/')
  {
    match parsePath(location)
    case None => Err(BadUrl(location))
    case Some(path) =>
      var values := Split(path, '/');
      SplitCount(path, '/');
      SplitLast(path, '/');
      LastPieceShape(path, '/');
      if |values| > 1 then Ok(values[|values| - 1]) else Err(NoResourceId)
  }

  /** A `Location` whose path is `<collection>/<id>`, for an `id` without '/',
      gives back exactly `id`: the extractor inverts the way resource paths are
      composed. */
  lemma IdOfResourcePath(parsePath: string -> Option<string>, location: string, collection: string, id: string)
    requires parsePath(location) == Some(collection + "/" + id)
    requires '/' !in id
    ensures ParseIdFromLocation(parsePath, location) == Ok(id)
  {
    var path := collection + "/" + id;
    assert path[|collection|] == '/';
    assert path[|path| - |id|..] == id;
  }

  /** A resource URL, with the path `url.Parse` gives it, yields its last segment. */
  lemma ResourceLocationExample(parsePath: string -> Option<string>)
    requires parsePath("https://api.toshl.com/accounts/abc123") == Some("/accounts/abc123")
    ensures ParseIdFromLocation(parsePath, "https://api.toshl.com/accounts/abc123") == Ok("abc123")
  {
    assert "/accounts" + "/" + "abc123" == "/accounts/abc123";
    IdOfResourcePath(parsePath, "https://api.toshl.com/accounts/abc123", "/accounts", "abc123");
  }

  /** A bare host with a trailing '/' has the path "/", and yields the empty ID
      rather than an error. */
  lemma HostLocationExample(parsePath: string -> Option<string>)
    requires parsePath("https://api.toshl.com/") == Some("/")
    ensures ParseIdFromLocation(parsePath, "https://api.toshl.com/") == Ok("")
  {
    assert "" + "/" + "" == "/";
    IdOfResourcePath(parsePath, "https://api.toshl.com/", "", "");
  }

  /** A missing header reads as the empty string, whose path has no '/'. */
  lemma MissingLocationExample(parsePath: string -> Option<string>)
    requires parsePath("") == Some("")
    ensures ParseIdFromLocation(parsePath, "") == Err(NoResourceId)
  {
  }
}

=== FILE: pagination.dfy ===
/** Cursor-following pagination (http_client.go, `GetMultiple`).

    The first request carries the caller's query string; every later request
    carries, as its whole query string, the cursor taken from the previous
    response's `Link` header, and the walk stops at the first empty cursor. The
    Go loop has no bound; the model counts the cursors it may still follow
    (`fuel`) and says `OutOfFuel` when a server would keep it going longer.
 */
module Pagination {
  import opened Results
  import opened Links
  import opened Transport

  /** The server as the walk sees it: `getRequest` for one endpoint, from a
      query string to a page or a failure. */
  type Fetcher = string -> Result<Page>

  /** The fetcher of `RestHTTPClient.getRequest` for the endpoint `api`. */
  function RestFetcher(c: RestClient, env: Env, api: string): Fetcher {
    (query: string) => GetRequest(c, env, api, query)
  }

  /** One request of the walk: the page body and the cursor `cursorOf` reads out
      of its `Link` header ("" on the last page). */
  function Step(fetch: Fetcher, cursorOf: string -> string, query: string): (r: Result<(string, string)>)
    ensures fetch(query).Err? ==> r == Err(fetch(query).error)
    ensures r.Ok? <==> fetch(query).Ok?
    ensures r.Ok? ==> r.value == (fetch(query).value.body, cursorOf(fetch(query).value.link))
  {
    var page :- fetch(query);
    Ok((page.body, cursorOf(page.link)))
  }

  /** The server as the walk's lemmas see it: for a query string, the page body
      and the cursor to follow next ("" on the last page), or a failure. */
  type Server = string -> Result<(string, string)>

  /** The server a fetcher presents to the pagination loop. */
  function PagedServer(fetch: Fetcher, cursorOf: string -> string): Server {
    (query: string) => Step(fetch, cursorOf, query)
  }

  /** How a walk ends: every body in request order, the first failure, or more
      cursors than the fuel allows. */
  datatype Walk = Complete(bodies: seq<string>) | Failed(error: Error) | OutOfFuel

  /** `bodies` fetched before the walk `w`. */
  function PrependAll(bodies: seq<string>, w: Walk): (r: Walk)
    ensures r.Complete? <==> w.Complete?
    ensures r.Complete? ==> r.bodies == bodies + w.bodies
    ensures !r.Complete? ==> r == w
  {
    match w
    case Complete(rest) => Complete(bodies + rest)
    case _ => w
  }

  /** The walk that starts with a request for `query`, following at most `fuel`
      further cursors. */
  function WalkFrom(server: Server, query: string, fuel: nat): Walk
    decreases fuel
  {
    match server(query)
    case Err(e) => Failed(e)
    case Ok((body, next)) =>
      if next == "" then Complete([body])
      else if fuel == 0 then OutOfFuel
      else PrependAll([body], WalkFrom(server, next, fuel - 1))
  }

  /** What remains of a walk once `cursor` has been extracted and `fuel` cursors
      may still be followed. */
  function Remaining(server: Server, cursor: string, fuel: nat): Walk {
    if cursor == "" then Complete([])
    else if fuel == 0 then OutOfFuel
    else WalkFrom(server, cursor, fuel - 1)
  }

  lemma PrependAllTwice(a: seq<string>, b: seq<string>, w: Walk)
    ensures PrependAll(a, PrependAll(b, w)) == PrependAll(a + b, w)
  {
    if w.Complete? {
      assert a + (b + w.bodies) == (a + b) + w.bodies;
    }
  }

  /** One request of a walk: a failure ends it, otherwise the body comes first and
      the rest is what the returned cursor leads to. */
  lemma WalkUnfold(server: Server, query: string, fuel: nat)
    ensures server(query).Err? ==> WalkFrom(server, query, fuel) == Failed(server(query).error)
    ensures server(query).Ok? ==>
              WalkFrom(server, query, fuel) == PrependAll([server(query).value.0], Remaining(server, server(query).value.1, fuel))
  {
    if server(query).Ok? && server(query).value.1 == "" {
      assert [server(query).value.0] + [] == [server(query).value.0];
    }
  }

  /** One turn of the pagination loop keeps the walk's remainder in step with
      the bodies collected. */
  lemma WalkAdvance(server: Server, bodies: seq<string>, link: string, left: nat, body: string, next: string)
    requires link != "" && left > 0
    requires server(link) == Ok((body, next))
    ensures PrependAll(bodies, Remaining(server, link, left)) == PrependAll(bodies + [body], Remaining(server, next, left - 1))
  {
    WalkUnfold(server, link, left - 1);
    PrependAllTwice(bodies, [body], Remaining(server, next, left - 1));
  }

  /** A failed request ends the walk with its error, whatever came before. */
  lemma WalkAdvanceFails(server: Server, bodies: seq<string>, link: string, left: nat)
    requires link != "" && left > 0
    requires server(link).Err?
    ensures PrependAll(bodies, Remaining(server, link, left)) == Failed(server(link).error)
  {
    WalkUnfold(server, link, left - 1);
  }

  /** The requests of the loop as `PagedServer` answers them. */
  lemma PagedStep(fetch: Fetcher, cursorOf: string -> string, query: string)
    ensures PagedServer(fetch, cursorOf)(query).Err? <==> fetch(query).Err?
    ensures fetch(query).Err? ==> PagedServer(fetch, cursorOf)(query).error == fetch(query).error
    ensures fetch(query).Ok? ==>
              PagedServer(fetch, cursorOf)(query).value == (fetch(query).value.body, cursorOf(fetch(query).value.link))
  {
  }

  /** The loop of `GetMultiple`, for any way `cursorOf` of reading the next cursor
      out of a `Link` header. It follows cursors while they are not empty; a failed
      request discards every body fetched so far. The result is the one the walk
      describes, under the hypothesis that the server ends the walk within `fuel`
      cursors. */
  method FollowCursors(fetch: Fetcher, cursorOf: string -> string, query: string, ghost fuel: nat)
    returns (responses: seq<string>, err: Option<Error>)
    requires WalkFrom(PagedServer(fetch, cursorOf), query, fuel) != OutOfFuel
    ensures err.None? <==> WalkFrom(PagedServer(fetch, cursorOf), query, fuel).Complete?
    ensures err.None? ==> responses == WalkFrom(PagedServer(fetch, cursorOf), query, fuel).bodies
    ensures err.Some? ==> responses == [] && WalkFrom(PagedServer(fetch, cursorOf), query, fuel) == Failed(err.value)
  {
    ghost var server := PagedServer(fetch, cursorOf);
    var first := fetch(query);
    PagedStep(fetch, cursorOf, query);
    WalkUnfold(server, query, fuel);
    if first.Err? {
      return [], Some(first.error);
    }
    var link := cursorOf(first.value.link);
    responses := [first.value.body];
    ghost var left := fuel;
    while link != ""
      invariant WalkFrom(server, query, fuel) == PrependAll(responses, Remaining(server, link, left))
      decreases left
    {
      assert left > 0;
      var page := fetch(link);
      PagedStep(fetch, cursorOf, link);
      if page.Err? {
        WalkAdvanceFails(server, responses, link, left);
        return [], Some(page.error);
      }
      var next := cursorOf(page.value.link);
      WalkAdvance(server, responses, link, left, page.value.body, next);
      responses := responses + [page.value.body];
      link := next;
      left := left - 1;
    }
    return responses, None;
  }

  /** `RestHTTPClient.GetMultiple`: the loop over `getRequest` for the endpoint
      `api`, with `extractNextLink` reading the cursors. */
  method GetMultiple(c: RestClient, env: Env, api: string, query: string, ghost fuel: nat)
    returns (responses: seq<string>, err: Option<Error>)
    requires WalkFrom(PagedServer(RestFetcher(c, env, api), ExtractNextLink), query, fuel) != OutOfFuel
    ensures err.None? <==> WalkFrom(PagedServer(RestFetcher(c, env, api), ExtractNextLink), query, fuel).Complete?
    ensures err.None? ==> responses == WalkFrom(PagedServer(RestFetcher(c, env, api), ExtractNextLink), query, fuel).bodies
    ensures err.Some? ==> responses == [] && WalkFrom(PagedServer(RestFetcher(c, env, api), ExtractNextLink), query, fuel) == Failed(err.value)
  {
    responses, err := FollowCursors(RestFetcher(c, env, api), ExtractNextLink, query, fuel);
  }

  // ---------------------------------------------------------------------------
  // The walk as a chain of requests
  // ---------------------------------------------------------------------------

  /** The cursor that follows request `k` of a chain: the next query, or "" after
      the last one. */
  function CursorAfter(queries: seq<string>, k: nat): string {
    if k + 1 < |queries| then queries[k + 1] else ""
  }

  /** The server answers `query` with `body` and points at `next`. */
  predicate Answers(server: Server, query: string, body: string, next: string) {
    server(query) == Ok((body, next))
  }

  /** `queries[k]` is the query string of the k-th request and `bodies[k]` its
      response body: each request after the first carries, verbatim, the non-empty
      cursor the previous response pointed at, and the last response points at
      none. */
  predicate Chain(server: Server, queries: seq<string>, bodies: seq<string>) {
    && |queries| == |bodies| >= 1
    && (forall k :: 1 <= k < |queries| ==> |queries[k]| > 0)
    && (forall k :: 0 <= k < |queries| ==> AnswersAt(server, queries, bodies, k))
  }

  /** Request `k` of a chain is answered with body `k` and the cursor after it. */
  predicate AnswersAt(server: Server, queries: seq<string>, bodies: seq<string>, k: nat) {
    k < |queries| && k < |bodies| && Answers(server, queries[k], bodies[k], CursorAfter(queries, k))
  }

  lemma ChainTail(server: Server, queries: seq<string>, bodies: seq<string>)
    requires Chain(server, queries, bodies) && |queries| >= 2
    ensures Chain(server, queries[1..], bodies[1..])
  {
    var qs := queries[1..];
    var bs := bodies[1..];
    forall k | 0 <= k < |qs|
      ensures AnswersAt(server, qs, bs, k)
    {
      assert qs[k] == queries[k + 1] && bs[k] == bodies[k + 1];
      assert CursorAfter(qs, k) == CursorAfter(queries, k + 1);
      assert AnswersAt(server, queries, bodies, k + 1);
    }
  }

  lemma ChainCons(server: Server, query: string, body: string, queries: seq<string>, bodies: seq<string>)
    requires Chain(server, queries, bodies)
    requires |queries[0]| > 0
    requires Answers(server, query, body, queries[0])
    ensures Chain(server, [query] + queries, [body] + bodies)
  {
    var qs := [query] + queries;
    var bs := [body] + bodies;
    forall k | 1 <= k < |qs|
      ensures |qs[k]| > 0
    {
      assert qs[k] == queries[k - 1];
    }
    forall k | 0 <= k < |qs|
      ensures AnswersAt(server, qs, bs, k)
    {
      ConsAnswers(server, query, body, queries, bodies, k);
    }
  }

  /** Request `k` of the longer chain is the caller's request or request `k - 1`
      of the shorter one. */
  lemma ConsAnswers(server: Server, query: string, body: string, queries: seq<string>, bodies: seq<string>, k: nat)
    requires Chain(server, queries, bodies)
    requires Answers(server, query, body, queries[0])
    requires k <= |queries|
    ensures AnswersAt(server, [query] + queries, [body] + bodies, k)
  {
    var qs := [query] + queries;
    var bs := [body] + bodies;
    if k == 0 {
      assert qs[0] == query && bs[0] == body && CursorAfter(qs, 0) == queries[0];
    } else {
      assert qs[k] == queries[k - 1] && bs[k] == bodies[k - 1];
      assert CursorAfter(qs, k) == CursorAfter(queries, k - 1);
      assert AnswersAt(server, queries, bodies, k - 1);
    }
  }

  /** A walk that completes is a chain of requests starting with the caller's
      query, one body per request, with at most `fuel` cursors followed. */
  lemma {:induction false} CompleteIsChain(server: Server, query: string, fuel: nat)
    returns (queries: seq<string>)
    requires WalkFrom(server, query, fuel).Complete?
    ensures 1 <= |queries| <= fuel + 1 && queries[0] == query
    ensures Chain(server, queries, WalkFrom(server, query, fuel).bodies)
    decreases fuel
  {
    var step := server(query).value;
    var body := step.0;
    var next := step.1;
    if next == "" {
      queries := [query];
    } else {
      var rest := CompleteIsChain(server, next, fuel - 1);
      ChainCons(server, query, body, rest, WalkFrom(server, next, fuel - 1).bodies);
      queries := [query] + rest;
    }
  }

  /** Conversely, a chain of requests starting with the caller's query is what the
      walk returns, given fuel for its cursors. */
  lemma {:induction false} ChainIsComplete(server: Server, queries: seq<string>, bodies: seq<string>, fuel: nat)
    requires Chain(server, queries, bodies)
    requires |queries| <= fuel + 1
    ensures WalkFrom(server, queries[0], fuel) == Complete(bodies)
    decreases |queries|
  {
    assert AnswersAt(server, queries, bodies, 0);
    if |queries| > 1 {
      ChainTail(server, queries, bodies);
      ChainIsComplete(server, queries[1..], bodies[1..], fuel - 1);
      assert [bodies[0]] + bodies[1..] == bodies;
    }
  }

  /** Following N cursors yields N + 1 bodies, whatever the server answered. */
  lemma OneBodyPerRequest(server: Server, queries: seq<string>, bodies: seq<string>)
    requires Chain(server, queries, bodies)
    ensures WalkFrom(server, queries[0], |queries| - 1) == Complete(bodies)
    ensures |bodies| == |queries|
  {
    ChainIsComplete(server, queries, bodies, |queries| - 1);
  }

  /** The request for `query` succeeds and points at the non-empty cursor `next`. */
  predicate Leads(server: Server, query: string, next: string) {
    server(query).Ok? && server(query).value.1 == next && |next| > 0
  }

  /** A walk fails exactly when some request fails after a chain of complete pages
      whose cursors led to it: the error is that request's error. */
  lemma {:induction false} FailedAfterPrefix(server: Server, query: string, fuel: nat)
    returns (queries: seq<string>)
    requires WalkFrom(server, query, fuel).Failed?
    ensures 1 <= |queries| <= fuel + 1 && queries[0] == query
    ensures server(queries[|queries| - 1]) == Err(WalkFrom(server, query, fuel).error)
    ensures forall k :: 0 <= k < |queries| - 1 ==> Leads(server, queries[k], queries[k + 1])
    decreases fuel
  {
    match server(query)
    case Err(e) =>
      queries := [query];
    case Ok((body, next)) =>
      var rest := FailedAfterPrefix(server, next, fuel - 1);
      queries := [query] + rest;
      forall k | 1 <= k < |queries| - 1
        ensures Leads(server, queries[k], queries[k + 1])
      {
        assert queries[k] == rest[k - 1] && queries[k + 1] == rest[k];
      }
  }

  /** Conversely, requests that lead from the caller's query to a failing one
      make the walk fail with that request's error. */
  lemma {:induction false} FailureEndsWalk(server: Server, queries: seq<string>, fuel: nat)
    requires 1 <= |queries| <= fuel + 1
    requires forall k :: 0 <= k < |queries| - 1 ==> Leads(server, queries[k], queries[k + 1])
    requires server(queries[|queries| - 1]).Err?
    ensures WalkFrom(server, queries[0], fuel) == Failed(server(queries[|queries| - 1]).error)
    decreases |queries|
  {
    if |queries| > 1 {
      assert Leads(server, queries[0], queries[1]);
      var rest := queries[1..];
      forall k | 0 <= k < |rest| - 1
        ensures Leads(server, rest[k], rest[k + 1])
      {
        assert rest[k] == queries[k + 1] && rest[k + 1] == queries[k + 2];
      }
      FailureEndsWalk(server, rest, fuel - 1);
      assert rest[|rest| - 1] == queries[|queries| - 1];
    }
  }

  /** More fuel does not change a walk that already ends. */
  lemma {:induction false} MoreFuel(server: Server, query: string, fuel: nat, more: nat)
    requires WalkFrom(server, query, fuel) != OutOfFuel
    requires fuel <= more
    ensures WalkFrom(server, query, more) == WalkFrom(server, query, fuel)
    decreases fuel
  {
    match server(query)
    case Err(e) =>
    case Ok((body, next)) =>
      if next != "" {
        MoreFuel(server, next, fuel - 1, more - 1);
      }
  }
}

=== FILE: query.dfy ===
/** The entry-listing query string of entry.go, and the part of `net/url` it is
    built with: `url.Values`, its `Set` and `Encode`, and `url.QueryEscape`.

    `EntryQueryParams.getQueryString` insists on both dates, collecting one
    message per missing date, and otherwise yields `from=YYYY-MM-DD&to=YYYY-MM-DD`.
 */
module Query {
  import opened Results
  import opened Text
  import opened Calendar

  // ---------------------------------------------------------------------------
  // Key order
  // ---------------------------------------------------------------------------

  /** `a` sorts strictly before `b`, comparing character by character; this is
      the byte order `sort.Strings` gives `Values.Encode`. */
  predicate Below(a: string, b: string)
    decreases |a|
  {
    if a == [] then b != []
    else if b == [] then false
    else if a[0] != b[0] then a[0] < b[0]
    else Below(a[1..], b[1..])
  }

  lemma BelowTotal(a: string, b: string)
    ensures a == b || Below(a, b) || Below(b, a)
    decreases |a|
  {
    if a != [] && b != [] && a[0] == b[0] {
      BelowTotal(a[1..], b[1..]);
      assert a == [a[0]] + a[1..] && b == [b[0]] + b[1..];
    }
  }

  lemma BelowTransitive(a: string, b: string, c: string)
    requires Below(a, b) && Below(b, c)
    ensures Below(a, c)
    decreases |a|
  {
    if a != [] && b != [] && c != [] && a[0] == b[0] && b[0] == c[0] {
      BelowTransitive(a[1..], b[1..], c[1..]);
    }
  }

  // ---------------------------------------------------------------------------
  // url.Values
  // ---------------------------------------------------------------------------

  predicate Sorted(entries: seq<(string, seq<string>)>) {
    forall i, j :: 0 <= i < j < |entries| ==> Below(entries[i].0, entries[j].0)
  }

  /** `url.Values`, a map from keys to lists of values, held as its entries in
      ascending key order (the order in which `Encode` writes them). */
  type Values = entries: seq<(string, seq<string>)> | Sorted(entries) witness []

  /** The values stored under `key`, if any. */
  function Lookup(vs: Values, key: string): Option<seq<string>>
  {
    if vs == [] then None
    else if vs[0].0 == key then Some(vs[0].1)
    else Lookup(vs[1..], key)
  }

  /** `Values.Set(key, value)`: afterwards `key` holds exactly `[value]`; every
      other key keeps what it held. */
  function Set(vs: Values, key: string, value: string): (r: Values)
    ensures Lookup(r, key) == Some([value])
    ensures forall k :: k != key ==> Lookup(r, k) == Lookup(vs, k)
    ensures forall i :: 0 <= i < |r| ==> r[i].0 == key || r[i] in vs
  {
    if vs == [] then
      [(key, [value])]
    else if vs[0].0 == key then
      var r := [(key, [value])] + vs[1..];
      assert Sorted(r) by {
        forall i, j | 0 <= i < j < |r| ensures Below(r[i].0, r[j].0) {
          assert r[j] == vs[j];
        }
      }
      r
    else if Below(key, vs[0].0) then
      var r := [(key, [value])] + vs;
      assert Sorted(r) by {
        forall i, j | 0 <= i < j < |r| ensures Below(r[i].0, r[j].0) {
          if i == 0 && j > 1 {
            BelowTransitive(key, vs[0].0, vs[j - 1].0);
          }
        }
      }
      r
    else
      BelowTotal(key, vs[0].0);
      var rest := Set(vs[1..], key, value);
      var r := [vs[0]] + rest;
      assert Sorted(r) by {
        forall i, j | 0 <= i < j < |r| ensures Below(r[i].0, r[j].0) {
          if i == 0 && r[j].0 != key {
            var m :| 0 <= m < |vs[1..]| && vs[1..][m] == r[j];
            assert vs[m + 1] == r[j];
          }
        }
      }
      r
  }

  /** Every (key, value) pair of `vs`, each escaped, in the order `Encode` writes
      them: keys ascending, the values of one key in their stored order. */
  function EscapedPairs(vs: Values): (pairs: seq<(string, string)>)
    ensures forall i :: 0 <= i < |pairs| ==>
              && '&' !in pairs[i].0 && '=' !in pairs[i].0
              && '&' !in pairs[i].1 && '=' !in pairs[i].1
  {
    if vs == [] then []
    else
      var key := QueryEscape(vs[0].0);
      var values := vs[0].1;
      var rest: Values := vs[1..];
      seq(|values|, i requires 0 <= i < |values| => (key, QueryEscape(values[i])))
        + EscapedPairs(rest)
  }

  /** Each pair written as `key=value`. */
  function Pieces(pairs: seq<(string, string)>): (pieces: seq<string>)
    ensures |pieces| == |pairs|
    ensures forall i :: 0 <= i < |pairs| ==> pieces[i] == pairs[i].0 + "=" + pairs[i].1
  {
    if pairs == [] then [] else [pairs[0].0 + "=" + pairs[0].1] + Pieces(pairs[1..])
  }

  /** `Values.Encode`: the pairs written as `key=value` and joined with '&'. */
  function Encode(vs: Values): string
  {
    Join(Pieces(EscapedPairs(vs)), '&')
  }

  /** `url.QueryEscape` keeps letters, digits and `-_.~`, writes a space as '+',
      and percent-encodes every other byte with upper-case hex digits. */
  predicate Unreserved(c: char) {
    || 'a' <= c <= 'z' || 'A' <= c <= 'Z' || '0' <= c <= '9'
    || c == '-' || c == '_' || c == '.' || c == '~'
  }

  const HexDigits: string := "0123456789ABCDEF"

  function EscapeChar(c: char): (r: string)
    ensures '&' !in r && '=' !in r
  {
    if Unreserved(c) then [c]
    else if c == ' ' then "+"
    else
      var b := c as int % 256;
      ['%', HexDigits[b / 16], HexDigits[b % 16]]
  }

  /** `url.QueryEscape`. Its output never holds the '&' and '=' that delimit a
      query string, and text made only of unreserved characters passes through
      unchanged. */
  function QueryEscape(s: string): (r: string)
    ensures '&' !in r && '=' !in r
    ensures (forall i :: 0 <= i < |s| ==> Unreserved(s[i])) ==> r == s
  {
    if s == [] then "" else EscapeChar(s[0]) + QueryEscape(s[1..])
  }

  // ---------------------------------------------------------------------------
  // Reading a query string back
  // ---------------------------------------------------------------------------

  /** A query-string piece read as `key=value`, split at its first '='. */
  function KeyValue(piece: string): (string, string)
  {
    match IndexOf(piece, '=')
    case None => (piece, "")
    case Some(i) => (piece[..i], piece[i + 1..])
  }

  /** How the receiving side reads a query string: pieces between '&', each split
      into key and value. */
  function QueryPairs(q: string): seq<(string, string)>
  {
    var pieces := Split(q, '&');
    seq(|pieces|, i requires 0 <= i < |pieces| => KeyValue(pieces[i]))
  }

  /** Reading an encoded query string back yields exactly the escaped pairs that
      were encoded, in order: '&' and '=' cannot occur inside an escaped key or
      value, so every delimiter in the text is one that `Encode` wrote. */
  lemma EncodeReadBack(vs: Values)
    requires EscapedPairs(vs) != []
    ensures QueryPairs(Encode(vs)) == EscapedPairs(vs)
  {
    var pairs := EscapedPairs(vs);
    var pieces := Pieces(pairs);
    forall i | 0 <= i < |pieces| ensures '&' !in pieces[i] && KeyValue(pieces[i]) == pairs[i] {
      var k := pairs[i].0;
      assert pieces[i][..|k|] == k;
      IndexOfFirst(pieces[i], '=', |k|);
      assert pieces[i][|k| + 1..] == pairs[i].1;
    }
    SplitJoin(pieces, '&');
  }

  // ---------------------------------------------------------------------------
  // EntryQueryParams
  // ---------------------------------------------------------------------------

  /** `EntryQueryParams` (entry.go:24): the date range of an entry listing. */
  datatype EntryQueryParams = EntryQueryParams(from: Date, to: Date)

  const FromMandatory: string := "'from' field is mandatory;"
  const ToMandatory: string := "'to' field is mandatory;"

  /** `EntryQueryParams.getQueryString`, returning Go's `(string, error)` pair with
      `None` for a nil error. A zero (unset) date is an error; the message names
      every missing date, `from` first. On error the query string is empty. */
  function GetQueryString(p: EntryQueryParams): (r: (string, Option<string>))
    ensures r.1.Some? <==> p.from == ZeroDate || p.to == ZeroDate
    ensures r.1.Some? ==> r.0 == ""
    ensures p.from == ZeroDate && p.to == ZeroDate ==> r.1 == Some(FromMandatory + ToMandatory)
    ensures p.from == ZeroDate && p.to != ZeroDate ==> r.1 == Some(FromMandatory)
    ensures p.from != ZeroDate && p.to == ZeroDate ==> r.1 == Some(ToMandatory)
    ensures r.1.None? ==> r.0 == "from=" + FormatDate(p.from) + "&to=" + FormatDate(p.to)
  {
    var v: Values := [];
    var errMsg := "";
    var errMsg := if p.from == ZeroDate then errMsg + FromMandatory else errMsg;
    var v := Set(v, "from", FormatDate(p.from));
    var errMsg := if p.to == ZeroDate then errMsg + ToMandatory else errMsg;
    var v := Set(v, "to", FormatDate(p.to));
    assert "" + FromMandatory == FromMandatory && "" + ToMandatory == ToMandatory;
    if errMsg != "" then ("", Some(errMsg))
    else
      EntryValuesEncode(p.from, p.to);
      (Encode(v), None)
  }

  /** Setting "from" and then "to" leaves two entries, "from" first. */
  lemma SetFromTo(a: string, b: string)
    ensures Set(Set([], "from", a), "to", b) == [("from", [a]), ("to", [b])]
  {
    assert Below("from", "to");
    assert Set([], "from", a) == [("from", [a])];
  }

  /** Date text is all digits and '-', which `QueryEscape` leaves alone. */
  lemma DateTextUnescaped(d: Date)
    ensures QueryEscape(FormatDate(d)) == FormatDate(d)
  {
    var s := FormatDate(d);
    assert forall i :: 0 <= i < |s| ==> Unreserved(s[i]);
  }

  lemma KeysUnescaped()
    ensures QueryEscape("from") == "from" && QueryEscape("to") == "to"
  {
    assert forall i :: 0 <= i < |"from"| ==> Unreserved("from"[i]);
    assert forall i :: 0 <= i < |"to"| ==> Unreserved("to"[i]);
  }

  /** Encoding two single-valued keys writes their two `key=value` pieces. */
  lemma EncodeTwo(v: Values, k1: string, a: string, k2: string, b: string)
    requires v == [(k1, [a]), (k2, [b])]
    ensures EscapedPairs(v) == [(QueryEscape(k1), QueryEscape(a)), (QueryEscape(k2), QueryEscape(b))]
    ensures Encode(v) == Join([QueryEscape(k1) + "=" + QueryEscape(a), QueryEscape(k2) + "=" + QueryEscape(b)], '&')
  {
    var rest: Values := v[1..];
    var last: Values := rest[1..];
    assert last == [];
    assert EscapedPairs(rest) == [(QueryEscape(k2), QueryEscape(b))];
    assert EscapedPairs(v) == [(QueryEscape(k1), QueryEscape(a))] + EscapedPairs(rest);
    var pairs := EscapedPairs(v);
    assert pairs == [(QueryEscape(k1), QueryEscape(a)), (QueryEscape(k2), QueryEscape(b))];
    assert Pieces(pairs) == [QueryEscape(k1) + "=" + QueryEscape(a), QueryEscape(k2) + "=" + QueryEscape(b)];
  }

  /** The two date values encode without any escaping, "from" before "to". */
  lemma EntryValuesEncode(from: Date, to: Date)
    ensures var v := Set(Set([], "from", FormatDate(from)), "to", FormatDate(to));
            && EscapedPairs(v) == [("from", FormatDate(from)), ("to", FormatDate(to))]
            && Encode(v) == "from=" + FormatDate(from) + "&to=" + FormatDate(to)
  {
    var a, b := FormatDate(from), FormatDate(to);
    SetFromTo(a, b);
    DateTextUnescaped(from);
    DateTextUnescaped(to);
    EncodeFromTo(Set(Set([], "from", a), "to", b), a, b);
  }

  /** Two values that need no escaping, under "from" and "to", encode as
      `from=a&to=b`. */
  lemma EncodeFromTo(v: Values, a: string, b: string)
    requires v == [("from", [a]), ("to", [b])]
    requires QueryEscape(a) == a && QueryEscape(b) == b
    ensures EscapedPairs(v) == [("from", a), ("to", b)]
    ensures Encode(v) == "from=" + a + "&to=" + b
  {
    KeysUnescaped();
    EncodeTwo(v, "from", a, "to", b);
    var pieces := ["from" + "=" + a, "to" + "=" + b];
    assert pieces[1..] == [pieces[1]];
    assert Join(pieces, '&') == pieces[0] + ['&'] + pieces[1];
    FromToText(a, b);
  }

  /** The two joined pieces, regrouped, are the text `from=<a>&to=<b>`. */
  lemma FromToText(a: string, b: string)
    ensures ("from" + "=" + a) + ['&'] + ("to" + "=" + b) == "from=" + a + "&to=" + b
  {
  }

  /** A receiver of a valid entry query string finds exactly the keys "from" and
      "to", in that order, holding the dates' texts. */
  lemma EntryQueryPairs(p: EntryQueryParams)
    requires GetQueryString(p).1.None?
    ensures QueryPairs(GetQueryString(p).0) == [("from", FormatDate(p.from)), ("to", FormatDate(p.to))]
  {
    var v := Set(Set([], "from", FormatDate(p.from)), "to", FormatDate(p.to));
    EntryValuesEncode(p.from, p.to);
    EncodeReadBack(v);
  }

  /** ... and parses those texts back to the very dates whenever the years have
      four digits. */
  lemma EntryQueryReadBack(p: EntryQueryParams)
    requires GetQueryString(p).1.None?
    ensures var pairs := QueryPairs(GetQueryString(p).0);
            && |pairs| == 2
            && (0 <= p.from.year <= 9999 ==> ParseDate(pairs[0].1) == Ok(p.from))
            && (0 <= p.to.year <= 9999 ==> ParseDate(pairs[1].1) == Ok(p.to))
  {
    EntryQueryPairs(p);
    if 0 <= p.from.year <= 9999 {
      DateTextRoundTrip(p.from);
    }
    if 0 <= p.to.year <= 9999 {
      DateTextRoundTrip(p.to);
    }
  }
}

=== FILE: results.dfy ===
/** Failure-carrying values shared by every part of the client model.

    Go functions in this client return `(value, error)` pairs; the model returns a
    `Result` instead, whose `Err` arm carries one of the error kinds the client can
    produce.
 */
module Results {

  datatype Option<+T> = None | Some(value: T)

  /** The errors the client surfaces. Messages that the code builds itself are kept;
      errors that come out of the Go standard library are named by their origin. */
  datatype Error =
    | BadUrl(url: string)              // url.Parse (or http.NewRequest) rejected the text
    | TransportFailure(reason: string) // Client.Do or reading the response body failed
    | StatusNot2xx                     // "status code is not 2XX" (Post only)
    | NoResourceId                     // "cannot parse resource ID"
    | BadTimeText(text: string)        // time.Parse rejected the text
    | DecodeFailure(reason: string)    // json.Unmarshal rejected a body
    | EncodeFailure(reason: string)    // json.Marshal rejected a value

  datatype Result<+T> = Ok(value: T) | Err(error: Error) {

    predicate IsFailure() {
      Err?
    }

    function PropagateFailure<U>(): Result<U>
      requires Err?
    {
      Err(error)
    }

    function Extract(): T
      requires Ok?
    {
      value
    }
  }
}

=== FILE: text.dfy ===
/** Text helpers the client relies on from Go's standard library: `strings.Split`,
    `strings.Trim` with a one-character cutset, and base-10 rendering of numbers
    (zero-padded fields as `time.Format` writes them, and `strconv.Itoa`).

    A Go string is a sequence of bytes; the model uses `string` (a sequence of
    `char`) and lets one character stand for one byte.
 */
module Text {
  import opened Results

  // ---------------------------------------------------------------------------
  // Searching, splitting and joining
  // ---------------------------------------------------------------------------

  /** Position of the first `c` in `s`, if there is one. */
  function IndexOf(s: string, c: char): (r: Option<nat>)
    ensures r.None? <==> c !in s
    ensures r.Some? ==> r.value < |s| && s[r.value] == c && c !in s[..r.value]
  {
    if s == [] then None
    else if s[0] == c then Some(0)
    else match IndexOf(s[1..], c)
      case None => None
      case Some(i) =>
        assert s[..i + 1] == [s[0]] + s[1..][..i];
        Some(i + 1)
  }

  /** `parts` glued back together with `sep` between neighbours (`strings.Join`). */
  function Join(parts: seq<string>, sep: char): string
  {
    if |parts| == 0 then ""
    else if |parts| == 1 then parts[0]
    else parts[0] + [sep] + Join(parts[1..], sep)
  }

  /** `strings.Split(s, string(sep))`: the pieces of `s` between separators. There
      is always at least one piece: the empty string splits into one empty piece. */
  function Split(s: string, sep: char): (parts: seq<string>)
    ensures |parts| >= 1
    decreases |s|
  {
    match IndexOf(s, sep)
    case None => [s]
    case Some(i) => [s[..i]] + Split(s[i + 1..], sep)
  }

  /** No piece holds the separator, and joining the pieces gives the text back. */
  lemma {:induction false} SplitPieces(s: string, sep: char)
    ensures forall i :: 0 <= i < |Split(s, sep)| ==> sep !in Split(s, sep)[i]
    ensures Join(Split(s, sep), sep) == s
    decreases |s|
  {
    match IndexOf(s, sep)
    case None =>
    case Some(i) =>
      var rest := Split(s[i + 1..], sep);
      SplitPieces(s[i + 1..], sep);
      assert s == s[..i] + [sep] + s[i + 1..];
      assert ([s[..i]] + rest)[1..] == rest;
  }

  /** The first occurrence is the one with no occurrence before it. */
  lemma IndexOfFirst(s: string, c: char, k: nat)
    requires k < |s| && s[k] == c && c !in s[..k]
    ensures IndexOf(s, c) == Some(k)
  {
    var j := IndexOf(s, c).value;
    assert forall i :: 0 <= i < k ==> s[..k][i] == s[i];
    assert forall i :: 0 <= i < j ==> s[..j][i] == s[i];
  }

  /** Splitting undoes joining when no piece holds the separator. */
  lemma {:induction false} SplitJoin(parts: seq<string>, sep: char)
    requires |parts| >= 1
    requires forall i :: 0 <= i < |parts| ==> sep !in parts[i]
    ensures Split(Join(parts, sep), sep) == parts
  {
    if |parts| > 1 {
      var head := parts[0];
      var rest := Join(parts[1..], sep);
      var s := Join(parts, sep);
      assert s == head + [sep] + rest;
      assert s[|head|] == sep;
      assert s[..|head|] == head;
      assert s[|head| + 1..] == rest;
      IndexOfFirst(s, sep, |head|);
      SplitJoin(parts[1..], sep);
      assert Split(s, sep) == [head] + Split(rest, sep);
    }
  }

  /** The text after the final separator, all of `s` when there is none. */
  function LastPiece(s: string, sep: char): string
    decreases |s|
  {
    match IndexOf(s, sep)
    case None => s
    case Some(i) => LastPiece(s[i + 1..], sep)
  }

  /** The last piece holds no separator; it is all of a text without one, and
      otherwise a proper suffix that a separator precedes. */
  lemma {:induction false} LastPieceShape(s: string, sep: char)
    ensures var last := LastPiece(s, sep);
            && sep !in last
            && (sep !in s ==> last == s)
            && (sep in s ==> |last| < |s| && last == s[|s| - |last|..] && s[|s| - |last| - 1] == sep)
    decreases |s|
  {
    match IndexOf(s, sep)
    case None =>
    case Some(i) =>
      LastPieceShape(s[i + 1..], sep);
      SuffixAfterSeparator(s, i, LastPiece(s[i + 1..], sep), sep);
  }

  /** The last piece of a split is the text after the final separator. */
  lemma {:induction false} SplitLast(s: string, sep: char)
    ensures Split(s, sep)[|Split(s, sep)| - 1] == LastPiece(s, sep)
    decreases |s|
  {
    match IndexOf(s, sep)
    case None =>
      assert Split(s, sep) == [s];
      assert LastPiece(s, sep) == s;
    case Some(i) =>
      var tail := Split(s[i + 1..], sep);
      SplitLast(s[i + 1..], sep);
      var parts := Split(s, sep);
      assert parts == [s[..i]] + tail;
      assert parts[|parts| - 1] == tail[|tail| - 1];
      assert LastPiece(s, sep) == LastPiece(s[i + 1..], sep);
  }

  /** A suffix of the text after position `i` that follows a separator (or is all
      of that text, when `s[i]` is the separator) follows a separator in `s`. */
  lemma SuffixAfterSeparator(s: string, i: nat, last: string, sep: char)
    requires i < |s| && s[i] == sep
    requires var t := s[i + 1..];
             && (sep !in t ==> last == t)
             && (sep in t ==> |last| < |t| && last == t[|t| - |last|..] && t[|t| - |last| - 1] == sep)
    ensures |last| < |s| && last == s[|s| - |last|..] && s[|s| - |last| - 1] == sep
  {
    var t := s[i + 1..];
    assert s[|s| - |last|..] == t[|t| - |last|..];
    if sep !in t {
      assert |s| - |last| - 1 == i;
    }
  }

  /** A split yields more than one piece exactly when the separator occurs. */
  lemma SplitCount(s: string, sep: char)
    ensures |Split(s, sep)| > 1 <==> sep in s
  {
    match IndexOf(s, sep)
    case None =>
    case Some(i) =>
      assert |Split(s, sep)| == 1 + |Split(s[i + 1..], sep)|;
  }

  // ---------------------------------------------------------------------------
  // Trimming
  // ---------------------------------------------------------------------------

  predicate AllChar(s: string, c: char) {
    forall i :: 0 <= i < |s| ==> s[i] == c
  }

  /** End of the run of `c` that starts at `i`: the first position at or after
      `i` that does not hold `c`, or the end of the text. */
  function LeadEnd(s: string, c: char, i: nat): (j: nat)
    requires i <= |s|
    ensures i <= j <= |s|
    ensures forall k :: i <= k < j ==> s[k] == c
    ensures j < |s| ==> s[j] != c
    decreases |s| - i
  {
    if i < |s| && s[i] == c then LeadEnd(s, c, i + 1) else i
  }

  /** Start of the run of `c` that ends just before `j`, looking no further left
      than `lo`. */
  function TrailStart(s: string, c: char, j: nat, lo: nat): (i: nat)
    requires lo <= j <= |s|
    ensures lo <= i <= j
    ensures forall k :: i <= k < j ==> s[k] == c
    ensures i > lo ==> s[i - 1] != c
    decreases j
  {
    if j > lo && s[j - 1] == c then TrailStart(s, c, j - 1, lo) else j
  }

  /** `strings.Trim(s, string(c))`: every leading and every trailing `c` removed.
      What is left neither starts nor ends with `c`. */
  function Trim(s: string, c: char): (r: string)
    ensures r == [] || (r[0] != c && r[|r| - 1] != c)
  {
    var i := LeadEnd(s, c, 0);
    s[i..TrailStart(s, c, |s|, i)]
  }

  /** What `Trim` keeps is a run of `s`, and everything cut off on either side
      of it is `c`. */
  lemma TrimIsRun(s: string, c: char)
    ensures var i := LeadEnd(s, c, 0);
            var r := Trim(s, c);
            && i + |r| <= |s| && r == s[i..i + |r|]
            && (forall k :: 0 <= k < i ==> s[k] == c)
            && (forall k :: i + |r| <= k < |s| ==> s[k] == c)
  {
  }

  /** Trimming never introduces a character: what `s` lacks, `Trim(s, c)` lacks. */
  lemma TrimKeepsAbsent(s: string, c: char, x: char)
    requires x !in s
    ensures x !in Trim(s, c)
  {
    var i := LeadEnd(s, c, 0);
    var r := Trim(s, c);
    assert forall k :: 0 <= k < |r| ==> r[k] == s[i + k];
  }

  /** The run of `c` from `i` ends at `j` when it holds `c` up to `j` and not at `j`. */
  lemma LeadEndAt(s: string, c: char, i: nat, j: nat)
    requires i <= j <= |s|
    requires forall k :: i <= k < j ==> s[k] == c
    requires j < |s| ==> s[j] != c
    ensures LeadEnd(s, c, i) == j
  {
  }

  /** The run of `c` ending before `j` starts at `i` when it holds `c` from `i`
      on and not just before `i`. */
  lemma TrailStartAt(s: string, c: char, j: nat, lo: nat, i: nat)
    requires lo <= i <= j <= |s|
    requires forall k :: i <= k < j ==> s[k] == c
    requires i > lo ==> s[i - 1] != c
    ensures TrailStart(s, c, j, lo) == i
  {
  }

  /** Trim removes exactly the surrounding run of `c`: a text that does not itself
      start or end with `c` comes back unchanged from any amount of padding. */
  lemma TrimExact(pre: string, mid: string, suf: string, c: char)
    requires AllChar(pre, c) && AllChar(suf, c)
    requires mid == [] || (mid[0] != c && mid[|mid| - 1] != c)
    ensures Trim(pre + mid + suf, c) == mid
  {
    var s := pre + mid + suf;
    if mid == [] {
      assert forall k :: 0 <= k < |s| ==> s[k] == c by {
        forall k | 0 <= k < |s| ensures s[k] == c {
          if k < |pre| { assert s[k] == pre[k]; } else { assert s[k] == suf[k - |pre|]; }
        }
      }
      LeadEndAt(s, c, 0, |s|);
      TrailStartAt(s, c, |s|, |s|, |s|);
    } else {
      var e := |pre| + |mid|;
      assert forall k :: 0 <= k < |pre| ==> s[k] == c by {
        forall k | 0 <= k < |pre| ensures s[k] == c { assert s[k] == pre[k]; }
      }
      assert s[|pre|] == mid[0];
      LeadEndAt(s, c, 0, |pre|);
      assert forall k :: e <= k < |s| ==> s[k] == c by {
        forall k | e <= k < |s| ensures s[k] == c { assert s[k] == suf[k - e]; }
      }
      assert s[e - 1] == mid[|mid| - 1];
      TrailStartAt(s, c, |s|, |pre|, e);
      assert s[|pre|..e] == mid;
    }
  }

  // ---------------------------------------------------------------------------
  // Decimal digits
  // ---------------------------------------------------------------------------

  predicate IsDigit(c: char) {
    '0' <= c <= '9'
  }

  predicate AllDigits(s: string) {
    forall i :: 0 <= i < |s| ==> IsDigit(s[i])
  }

  function DigitChar(d: nat): (c: char)
    requires d < 10
    ensures IsDigit(c)
  {
    ('0' as int + d) as char
  }

  function DigitValue(c: char): (d: nat)
    requires IsDigit(c)
    ensures d < 10 && DigitChar(d) == c
  {
    c as int - '0' as int
  }

  function Pow10(k: nat): (p: nat)
    ensures p >= 1
  {
    if k == 0 then 1 else 10 * Pow10(k - 1)
  }

  /** The number a digit string denotes in base 10; leading zeros add nothing and
      the empty string reads as 0. */
  function ValueOf(s: string): nat
    requires AllDigits(s)
  {
    if s == [] then 0 else ValueOf(s[..|s| - 1]) * 10 + DigitValue(s[|s| - 1])
  }

  /** The shortest base-10 text of `n`: "0" for zero, otherwise no leading zero. */
  function Decimal(n: nat): (s: string)
    ensures 1 <= |s| && AllDigits(s)
    ensures ValueOf(s) == n
    ensures n < Pow10(|s|)
    ensures |s| > 1 ==> Pow10(|s| - 1) <= n
    ensures |s| > 1 ==> s[0] != '0'
    decreases n
  {
    if n < 10 then
      [DigitChar(n)]
    else
      var init := Decimal(n / 10);
      var s := init + [DigitChar(n % 10)];
      assert s[..|s| - 1] == init;
      assert s[0] == init[0];
      assert n == 10 * (n / 10) + n % 10;
      s
  }

  function Zeros(k: nat): (s: string)
    ensures |s| == k && AllDigits(s) && AllChar(s, '0')
  {
    seq(k, _ => '0')
  }

  /** `n` in base 10, left-padded with zeros to at least `width` characters: how
      `time.Format` writes the numeric fields of a layout. */
  function Pad(n: nat, width: nat): (s: string)
    ensures AllDigits(s) && ValueOf(s) == n
    ensures |s| >= width && |s| >= 1
    ensures n < Pow10(width) && width >= 1 ==> |s| == width
  {
    var d := Decimal(n);
    if |d| < width then
      ValueOfLeadingZeros(width - |d|, d);
      Zeros(width - |d|) + d
    else
      assert n < Pow10(width) && width >= 1 ==> |d| <= width by {
        if n < Pow10(width) && width >= 1 && |d| > width {
          Pow10Monotone(width, |d| - 1);
        }
      }
      d
  }

  /** A number too large for `width` digits is written with more than `width`. */
  lemma PadWidth(n: nat, width: nat)
    requires width >= 1
    ensures |Pad(n, width)| > width <==> n >= Pow10(width)
  {
    var d := Decimal(n);
    if n >= Pow10(width) && |d| <= width {
      Pow10Monotone(|d|, width);
    }
  }

  /** `strconv.Itoa`: a minus sign exactly for negative numbers, then the
      shortest digits (no leading zero); the text reads back as `n`. */
  function Itoa(n: int): (s: string)
    ensures ReadInt(s) == Some(n)
    ensures |s| >= 1 && (s[0] == '-' <==> n < 0)
    ensures var digits := if n < 0 then s[1..] else s;
            && |digits| >= 1 && AllDigits(digits)
            && (|digits| == 1 || digits[0] != '0')
  {
    if n < 0 then "-" + Decimal(-n) else Decimal(n)
  }

  /** Reads a base-10 integer with an optional leading minus sign: the receiving
      side of `Itoa`. */
  function ReadInt(s: string): Option<int>
  {
    if |s| >= 2 && s[0] == '-' && AllDigits(s[1..]) then Some(-(ValueOf(s[1..]) as int))
    else if |s| >= 1 && AllDigits(s) then Some(ValueOf(s))
    else None
  }

  lemma {:induction false} Pow10Monotone(a: nat, b: nat)
    requires a <= b
    ensures Pow10(a) <= Pow10(b)
    decreases b
  {
    if a < b {
      Pow10Monotone(a, b - 1);
    }
  }

  lemma {:induction false} ZerosValue(k: nat)
    ensures ValueOf(Zeros(k)) == 0
  {
    if k > 0 {
      assert Zeros(k)[..k - 1] == Zeros(k - 1);
      ZerosValue(k - 1);
    }
  }

  /** Leading zeros do not change the value of a digit string. */
  lemma {:induction false} ValueOfLeadingZeros(k: nat, s: string)
    requires AllDigits(s)
    ensures AllDigits(Zeros(k) + s) && ValueOf(Zeros(k) + s) == ValueOf(s)
    decreases |s|
  {
    var z := Zeros(k) + s;
    assert AllDigits(z) by {
      forall i | 0 <= i < |z| ensures IsDigit(z[i]) {
        if i >= k { assert z[i] == s[i - k]; }
      }
    }
    if s == [] {
      assert z == Zeros(k);
      ZerosValue(k);
    } else {
      assert z[..|z| - 1] == Zeros(k) + s[..|s| - 1];
      ValueOfLeadingZeros(k, s[..|s| - 1]);
    }
  }

  /** A digit string of length `k` denotes a number below 10^k. */
  lemma {:induction false} ValueOfBound(s: string)
    requires AllDigits(s)
    ensures ValueOf(s) < Pow10(|s|)
  {
    if s != [] {
      ValueOfBound(s[..|s| - 1]);
    }
  }

  /** Two digit strings of the same length denote the same number only if they are
      the same string. */
  lemma {:induction false} ValueOfInjective(a: string, b: string)
    requires AllDigits(a) && AllDigits(b) && |a| == |b|
    requires ValueOf(a) == ValueOf(b)
    ensures a == b
  {
    if a != [] {
      var a', b' := a[..|a| - 1], b[..|b| - 1];
      var da, db := DigitValue(a[|a| - 1]), DigitValue(b[|b| - 1]);
      assert ValueOf(a) == ValueOf(a') * 10 + da;
      assert ValueOf(b) == ValueOf(b') * 10 + db;
      assert da == db && ValueOf(a') == ValueOf(b');
      ValueOfInjective(a', b');
      assert a == a' + [a[|a| - 1]];
      assert b == b' + [b[|b| - 1]];
    }
  }

  /** Zero-padding a digit string's value back to the string's own width gives the
      string back: the fixed-width fields of a layout have exactly one spelling. */
  lemma PadOfValue(s: string)
    requires AllDigits(s) && |s| >= 1
    ensures Pad(ValueOf(s), |s|) == s
  {
    ValueOfBound(s);
    ValueOfInjective(Pad(ValueOf(s), |s|), s);
  }
}

=== FILE: transport.dfy ===
/** The REST transport (http_client.go, `RestHTTPClient`): how each verb builds
    its request, which headers it sets, and what it makes of the response.

    The world outside the client is a parameter: `url.Parse` is `parsePath` (the
    path of a URL, `None` when the text is rejected), `Client.Do` is `send` (an
    `Err` is a transport failure), and `runtime.Version()` is a string.
 */
module Transport {
  import opened Results
  import opened Text
  import opened Location

  datatype Verb = GET | POST | PUT | DELETE {
    /** The verbs that carry a JSON payload. */
    predicate Writes() {
      POST? || PUT?
    }
  }

  datatype Request = Request(verb: Verb, url: string, headers: map<string, string>, payload: Option<string>)

  /** A response as the client sees it: the status code, the body (or the failure
      reading it), and the `Link` and `Location` header values, "" when absent. */
  datatype Response = Response(status: int, body: Result<string>, link: string, location: string)

  datatype Env = Env(
    parsePath: string -> Option<string>,
    send: Request -> Result<Response>,
    runtimeVersion: string)

  /** `RestHTTPClient`: where the API lives and the token that opens it. */
  datatype RestClient = RestClient(baseUrl: string, token: string)

  // ---------------------------------------------------------------------------
  // Headers
  // ---------------------------------------------------------------------------

  const ClientVersion: string := "0.1"
  const UserAgentPrefix: string := "toshl-go " + ClientVersion + " - "
  const BearerPrefix: string := "Bearer "

  /** `GetUserAgentString`: the client's name and version, then the Go runtime's
      version; the runtime version reads back from what follows the prefix. */
  function UserAgent(runtimeVersion: string): (ua: string)
    ensures |ua| == |UserAgentPrefix| + |runtimeVersion|
    ensures ua[..|UserAgentPrefix|] == "toshl-go 0.1 - "
    ensures ua[|UserAgentPrefix|..] == runtimeVersion
  {
    UserAgentPrefix + runtimeVersion
  }

  /** The value of an `Authorization` header written by `setAuthenticationHeader`. */
  function Authorization(token: string): string {
    BearerPrefix + token
  }

  /** Reads the token back out of a Bearer `Authorization` value (the scheme of
      section 2.1 of RFC 6750); `None` for any other scheme. */
  function BearerToken(value: string): (token: Option<string>)
    ensures token.Some? ==> Authorization(token.value) == value
  {
    if |value| >= |BearerPrefix| && value[..|BearerPrefix|] == BearerPrefix
    then Some(value[|BearerPrefix|..])
    else None
  }

  /** The headers a verb's request carries: the token and the User-Agent always,
      `Content-Type: application/json` exactly on the writing verbs. */
  function Headers(c: RestClient, verb: Verb, runtimeVersion: string): (h: map<string, string>)
    ensures "Authorization" in h && BearerToken(h["Authorization"]) == Some(c.token)
    ensures "User-Agent" in h && h["User-Agent"] == UserAgent(runtimeVersion)
    ensures "Content-Type" in h <==> verb.Writes()
    ensures "Content-Type" in h ==> h["Content-Type"] == "application/json"
    ensures forall k :: k in h ==> k == "Authorization" || k == "User-Agent" || k == "Content-Type"
  {
    assert (BearerPrefix + c.token)[..|BearerPrefix|] == BearerPrefix;
    var always := map["Authorization" := Authorization(c.token), "User-Agent" := UserAgent(runtimeVersion)];
    if verb.Writes() then always["Content-Type" := "application/json"] else always
  }

  // ---------------------------------------------------------------------------
  // Request URLs
  // ---------------------------------------------------------------------------

  /** The resource URL every verb starts from: the base URL, '/', the endpoint. */
  function ResourceUrl(c: RestClient, api: string): string {
    c.baseUrl + "/" + api
  }

  /** The URL `getRequest` requests: the resource URL, followed by '?' and the
      query string exactly when the query string is not empty. */
  function RequestUrl(c: RestClient, api: string, query: string): (url: string)
    ensures |url| >= |ResourceUrl(c, api)| && url[..|ResourceUrl(c, api)|] == ResourceUrl(c, api)
    ensures query == "" <==> url == ResourceUrl(c, api)
    ensures query != "" ==> url[|ResourceUrl(c, api)|..] == "?" + query
  {
    var resource := ResourceUrl(c, api);
    if query != "" then resource + "?" + query else resource
  }

  /** When the base URL and the endpoint have no '?', the request URL splits back
      at its first '?' into the resource URL and the query string. */
  lemma RequestUrlSplits(c: RestClient, api: string, query: string)
    requires '?' !in c.baseUrl && '?' !in api
    ensures var url := RequestUrl(c, api, query);
            && (IndexOf(url, '?').None? <==> query == "")
            && (query != "" ==>
                  var p := IndexOf(url, '?').value;
                  url[..p] == ResourceUrl(c, api) && url[p + 1..] == query)
  {
    var resource := ResourceUrl(c, api);
    assert '?' !in resource;
    var url := RequestUrl(c, api, query);
    if query != "" {
      assert url[|resource|] == '?';
      assert url[..|resource|] == resource;
      IndexOfFirst(url, '?', |resource|);
      assert url[|resource| + 1..] == query;
    }
  }

  /** `http.NewRequest` followed by the header setters: fails exactly when the URL
      does not parse. */
  function NewRequest(c: RestClient, env: Env, verb: Verb, url: string, payload: Option<string>): (r: Result<Request>)
    ensures env.parsePath(url).None? <==> r.Err?
    ensures r.Err? ==> r.error == BadUrl(url)
    ensures r.Ok? ==> r.value.verb == verb && r.value.url == url && r.value.payload == payload
    ensures r.Ok? ==> r.value.headers == Headers(c, verb, env.runtimeVersion)
  {
    if env.parsePath(url).None? then Err(BadUrl(url))
    else Ok(Request(verb, url, Headers(c, verb, env.runtimeVersion), payload))
  }

  // ---------------------------------------------------------------------------
  // Verbs
  // ---------------------------------------------------------------------------

  /** One fetched page: its body and its `Link` header. */
  datatype Page = Page(body: string, link: string)

  predicate Is2xx(status: int) {
    200 <= status < 300
  }

  /** `getRequest`: a GET of the request URL, without payload. Succeeds exactly
      when the URL parses, the request goes through and the body can be read,
      whatever the status code. */
  function GetRequest(c: RestClient, env: Env, api: string, query: string): (r: Result<Page>)
    ensures var url := RequestUrl(c, api, query);
            var req := Request(GET, url, Headers(c, GET, env.runtimeVersion), None);
            && (env.parsePath(url).None? ==> r == Err(BadUrl(url)))
            && (env.parsePath(url).Some? && env.send(req).Err? ==> r == Err(env.send(req).error))
            && (env.parsePath(url).Some? && env.send(req).Ok? && env.send(req).value.body.Err? ==>
                  r == Err(env.send(req).value.body.error))
            && (r.Ok? <==> env.parsePath(url).Some? && env.send(req).Ok? && env.send(req).value.body.Ok?)
            && (r.Ok? ==> r.value == Page(env.send(req).value.body.value, env.send(req).value.link))
  {
    var req :- NewRequest(c, env, GET, RequestUrl(c, api, query), None);
    var resp :- env.send(req);
    var body :- resp.body;
    Ok(Page(body, resp.link))
  }

  /** `Get`: the body of `getRequest`, or its error unchanged. */
  function Get(c: RestClient, env: Env, api: string, query: string): (r: Result<string>)
    ensures r.Ok? <==> GetRequest(c, env, api, query).Ok?
    ensures r.Ok? ==> r.value == GetRequest(c, env, api, query).value.body
    ensures r.Err? ==> r.error == GetRequest(c, env, api, query).error
  {
    var page :- GetRequest(c, env, api, query);
    Ok(page.body)
  }

  /** `Post`: sends the payload; a status outside [200, 300) fails with
      `StatusNot2xx` before `Location` is looked at, and a 2xx status yields the
      resource ID parsed from `Location` (or that parse's error). */
  function Post(c: RestClient, env: Env, api: string, payload: string): (r: Result<string>)
    ensures var url := ResourceUrl(c, api);
            var req := Request(POST, url, Headers(c, POST, env.runtimeVersion), Some(payload));
            && (env.parsePath(url).None? ==> r == Err(BadUrl(url)))
            && (env.parsePath(url).Some? && env.send(req).Err? ==> r == Err(env.send(req).error))
            && (r.Ok? ==> env.send(req).Ok? && Is2xx(env.send(req).value.status))
            && (env.parsePath(url).Some? && env.send(req).Ok? ==>
                  var resp := env.send(req).value;
                  r == if Is2xx(resp.status) then ParseIdFromLocation(env.parsePath, resp.location)
                       else Err(StatusNot2xx))
  {
    var req :- NewRequest(c, env, POST, ResourceUrl(c, api), Some(payload));
    var resp :- env.send(req);
    if resp.status < 200 || resp.status >= 300 then Err(StatusNot2xx)
    else ParseIdFromLocation(env.parsePath, resp.location)
  }

  /** `Update`: a PUT of the payload whose result is the response body, whatever
      the status code; a failing step's error is returned unchanged. */
  function Update(c: RestClient, env: Env, api: string, payload: string): (r: Result<string>)
    ensures var url := ResourceUrl(c, api);
            var req := Request(PUT, url, Headers(c, PUT, env.runtimeVersion), Some(payload));
            && (env.parsePath(url).None? ==> r == Err(BadUrl(url)))
            && (env.parsePath(url).Some? && env.send(req).Err? ==> r == Err(env.send(req).error))
            && (env.parsePath(url).Some? && env.send(req).Ok? && env.send(req).value.body.Err? ==>
                  r == Err(env.send(req).value.body.error))
            && (r.Ok? <==> env.parsePath(url).Some? && env.send(req).Ok? && env.send(req).value.body.Ok?)
            && (r.Ok? ==> r.value == env.send(req).value.body.value)
  {
    var req :- NewRequest(c, env, PUT, ResourceUrl(c, api), Some(payload));
    var resp :- env.send(req);
    resp.body
  }

  /** `Delete`: a DELETE without payload that succeeds (`None`, Go's nil error) as
      soon as the request goes through, whatever the response says; otherwise
      the failing step's error. */
  function Delete(c: RestClient, env: Env, api: string): (err: Option<Error>)
    ensures var url := ResourceUrl(c, api);
            var req := Request(DELETE, url, Headers(c, DELETE, env.runtimeVersion), None);
            && (env.parsePath(url).None? ==> err == Some(BadUrl(url)))
            && (env.parsePath(url).Some? && env.send(req).Err? ==> err == Some(env.send(req).error))
            && (err.None? <==> env.parsePath(url).Some? && env.send(req).Ok?)
  {
    match NewRequest(c, env, DELETE, ResourceUrl(c, api), None)
    case Err(e) => Some(e)
    case Ok(req) =>
      match env.send(req)
      case Err(e) => Some(e)
      case Ok(_) => None
  }

  // ---------------------------------------------------------------------------
  // Which verbs look at the status code
  // ---------------------------------------------------------------------------

  /** The same server, answering every request with the given status code. */
  function WithStatus(env: Env, status: int): (e: Env)
    ensures e.parsePath == env.parsePath && e.runtimeVersion == env.runtimeVersion
  {
    env.(send := (req: Request) =>
      match env.send(req)
      case Err(error) => Err(error)
      case Ok(resp) => Ok(resp.(status := status)))
  }

  /** `Get`, `Update` and `Delete` never look at the status code: a server that
      answers with any other status gives the same result. */
  lemma StatusFreeVerbs(c: RestClient, env: Env, status: int, api: string, query: string, payload: string)
    ensures Get(c, WithStatus(env, status), api, query) == Get(c, env, api, query)
    ensures Update(c, WithStatus(env, status), api, payload) == Update(c, env, api, payload)
    ensures Delete(c, WithStatus(env, status), api) == Delete(c, env, api)
  {
    var e := WithStatus(env, status);
    var getReq := Request(GET, RequestUrl(c, api, query), Headers(c, GET, env.runtimeVersion), None);
    var putReq := Request(PUT, ResourceUrl(c, api), Headers(c, PUT, env.runtimeVersion), Some(payload));
    var deleteReq := Request(DELETE, ResourceUrl(c, api), Headers(c, DELETE, env.runtimeVersion), None);
    assert e.send(getReq).Ok? == env.send(getReq).Ok?;
    assert e.send(putReq).Ok? == env.send(putReq).Ok?;
    assert e.send(deleteReq).Ok? == env.send(deleteReq).Ok?;
  }

  /** `Post` does look at it: for a request that reaches the server, a non-2xx
      status fails whatever `Location` says, and a 2xx status returns the ID that
      `Location` carries. */
  lemma PostStatusGate(c: RestClient, env: Env, status: int, api: string, payload: string)
    requires env.parsePath(ResourceUrl(c, api)).Some?
    requires env.send(Request(POST, ResourceUrl(c, api), Headers(c, POST, env.runtimeVersion), Some(payload))).Ok?
    ensures !Is2xx(status) ==> Post(c, WithStatus(env, status), api, payload) == Err(StatusNot2xx)
    ensures Is2xx(status) ==>
              var resp := env.send(Request(POST, ResourceUrl(c, api), Headers(c, POST, env.runtimeVersion), Some(payload))).value;
              Post(c, WithStatus(env, status), api, payload) == ParseIdFromLocation(env.parsePath, resp.location)
  {
    var req := Request(POST, ResourceUrl(c, api), Headers(c, POST, env.runtimeVersion), Some(payload));
    var e := WithStatus(env, status);
    assert e.send(req) == Ok(env.send(req).value.(status := status));
  }
}
